=== FILE: README.md ===
# PKHeX encounter matching, modelled in Dafny

This project models the part of PKHeX's legality checker that decides where a
creature could have come from:

- **Origin chain** (`EncounterOrigin`). From a record's met data, format and
  generation it computes the level window of the origin generation. It then
  trims the chain of possible pre-evolutions to that window.
- **Wild slots of Omega Ruby / Alpha Sapphire** (`Areas6AO`). It decodes the
  packed area records and matches their slots against an origin chain. The
  level window is widened by the White and Black Flutes and by DexNav chains.
  Each match is marked with the condition that explains its level.
- **Slot types** (`SlotTypes`). This covers the method byte with its Swarm
  modifier, the fishing-rod and Sweet Scent classes, and the ball a wild
  encounter requires.
- **In-game trades** (`Trades`). It models the `EncounterTrade` template and
  its generation 3 variant: the eligibility test, the trainer-ID setter, the
  localized name lookups, and the deterministic part of building the traded
  creature, including the per-game language fix-ups.
- **Static encounters** (`StaticGenerator`). It chooses the table for a game,
  narrows it to the chain's species, and matches candidates so that confident
  matches come before deferred ones. It also builds the virtual-console
  transfer template.
- **N's fixed-PID encounters of Black 2 / White 2** (`Static5N`).
- **Let's Go Pikachu / Eevee data fix-ups** (`Encounters7b`). It appends the
  rare spawns to the wild areas and builds the in-game trade table.

The shared vocabulary is split into its own modules:

- `Common`: results, byte-sized integers, and `Filter` (LINQ `Where`) with its lemmas.
- `Versions`: game versions and their groups.
- `Creatures`: the record fields the matchers read, and evolution-chain nodes.

The code relies on lookups it does not define. The evolution table, shiny
policy tests, the base static-encounter tests, the language sanitiser and the
safari-zone tables all enter as function-typed parameters. Each lemma
therefore holds for every such lookup.

Integer widths are modelled where they matter:

- `TID7` splits a 32-bit value with `(ushort)` and an arithmetic `>> 16`.
- The name lookups guard with `(uint)language < Count`.
- The rare-spawn location is compared as `(byte)location`.
- The 6AO slot word is masked with `0x3FF` and shifted with `>> 11`.

Two facts about the 6AO slot code are worth stating outright:

- **Species field width.** The code masks the slot word's species with
  `0x3FF`, which keeps 10 bits, and takes the form from `>> 11`. Bit 10 is
  read by neither field: `Areas6AO.Bit10Ignored` shows that flipping it
  leaves the decoded slot unchanged.
- **Rock Smash level bound.** For a Rock Smash slot the window is widened
  upward by the Black Flute's 4 levels. The range test itself
  (`EncounterSlot.IsLevelWithinRange`) is not part of this model; under the
  inclusive test that `Areas6AO.WidenedWindow` stands in for, a slot of
  levels 10 to 10 admits met level 14 and refuses 15, as
  `Areas6AO.RockSmashWindow` states.

## Model

| member | source | states |
|---|---|---|
| EncounterOrigin.FutureKeyIsSum | PKHeX.Core/Legality/Evolutions/EncounterOrigin.cs:169-181 | the dictionary key `species \| form << 11` equals `species + 2048 * form` for every species below 2048, so the keys of the level-up table are sums of distinct bit ranges |
| EncounterOrigin.BitOrAboveIsSum | PKHeX.Core/Legality/Evolutions/EncounterOrigin.cs:128 | OR-ing a value with a multiple of 2^k above its own bits is addition |
| EncounterOrigin.LevelOriginMaxTransfer | PKHeX.Core/Legality/Evolutions/EncounterOrigin.cs:124-135 | the origin maximum is the met level less the gen 6+ table's value when the species-form is in that table, otherwise the met level less 1 before gen 4 for a species of the gen 4 set, otherwise the met level; it always lies within 2 levels below the met level |
| EncounterOrigin.LevelOriginMin | PKHeX.Core/Legality/Evolutions/EncounterOrigin.cs:98-109 | format 3: exactly 5 for an egg and Max(2, met level) otherwise; other formats: Max(1, met level) when the met level is used and exactly 1 when it is not |
| EncounterOrigin.LevelOriginMax | PKHeX.Core/Legality/Evolutions/EncounterOrigin.cs:111-122 | with original met data the maximum is the current level; without it, the met level from gen 4 on and the transfer value of `LevelOriginMaxTransfer` before gen 4 |
| EncounterOrigin.OriginWindow | PKHeX.Core/Legality/Evolutions/EncounterOrigin.cs:19-25 | the window of a gen 3+ record is exactly (`LevelOriginMin`, `LevelOriginMax`) with the record's met-data flag |
| EncounterOrigin.OriginWindow12 | PKHeX.Core/Legality/Evolutions/EncounterOrigin.cs:33-63 | the window for each record kind: PK2 uses its caught data, current level (less one for gen 2 level-up species under RBY) and egg/met minimum; PK1 has no met data and the current level; later records have no met data, minimum 2 and the transfer maximum for generation 1 under RBY and 2 otherwise |
| EncounterOrigin.Trimmed | PKHeX.Core/Legality/Evolutions/EncounterOrigin.cs:76-95 | the trimmed chain is empty exactly when some node lies above the window and no fitting node reaches the maximum; otherwise it is every fitting node in order, clamped, so every kept node fits and is a clamped subsequence of the input |
| EncounterOrigin.TrimFromCharacterization | PKHeX.Core/Legality/Evolutions/EncounterOrigin.cs:80-94 | the removal loop, for any already-visited suffix, equals the declarative description above |
| EncounterOrigin.FeasibleClampedIsTrimmedSubsequence | PKHeX.Core/Legality/Evolutions/EncounterOrigin.cs:80-94 | keeping the fitting nodes and clamping them only deletes and lowers nodes of the chain |
| EncounterOrigin.TrimOriginChain | PKHeX.Core/Legality/Evolutions/EncounterOrigin.cs:76-95 | the in-place loop from the end (remove, test the rest for a node reaching the maximum, clear, clamp) returns the declaratively trimmed chain |
| EncounterOrigin.ChainForWindow | PKHeX.Core/Legality/Evolutions/EncounterOrigin.cs:68-96 | an empty window gives an empty chain; with original met data the chain is the external chain from the window maximum down to its minimum; without it, the external chain up to the current level is empty exactly when some node lies above the window and no fitting node reaches the maximum, and otherwise is every fitting node in order, clamped to the maximum |
| EncounterOrigin.GetOriginChain | PKHeX.Core/Legality/Evolutions/EncounterOrigin.cs:19-25 | with the window of `OriginWindow` and no species limit: empty when the window is empty (in particular when the current level is below the met minimum); the external chain for original met data; otherwise the trimmed chain up to the current level as for `ChainForWindow`, so no node exceeds the met level |
| EncounterOrigin.GetOriginChain12 | PKHeX.Core/Legality/Evolutions/EncounterOrigin.cs:33-66 | with the window of `OriginWindow12` and species limit 151 under RBY, 251 otherwise: empty when the window is empty; the external chain when the window has met data; otherwise the trimmed chain up to the current level as for `ChainForWindow`; for a PK1 record no node exceeds the current level |
| SlotTypes.ComposeSeparates | PKHeX.Core/Legality/Enums/SlotType.cs:12-73 | the base method sits in the low four bits and the Swarm flag in bit 7, so both are recovered from the stored byte |
| SlotTypes.CodeInjective | PKHeX.Core/Legality/Enums/SlotType.cs:12-73 | distinct base methods have distinct codes |
| SlotTypes.IsFishingRodType | PKHeX.Core/Legality/Enums/SlotType.cs:77-81 | a rod type exactly when the low four bits lie between Old Rod and Super Rod; no rod type is a Sweet Scent method |
| SlotTypes.IsSweetScentType | PKHeX.Core/Legality/Enums/SlotType.cs:83-93 | exactly Grass, Surf and Bug Contest, none of which carries the Swarm bit or is a rod method |
| SlotTypes.FishingRodIgnoresSwarm | PKHeX.Core/Legality/Enums/SlotType.cs:77-81 | after masking with 0xF a method is a rod method exactly when its base is one of the three rods, with or without Swarm |
| SlotTypes.SweetScentRefusesSwarm | PKHeX.Core/Legality/Enums/SlotType.cs:83-93 | Sweet Scent admits exactly unmodified Grass, Surf and Bug Contest; the unmasked comparison refuses every Swarm value |
| SlotTypes.GetRequiredBallValueWild | PKHeX.Core/Legality/Enums/SlotType.cs:95-108 | Safari exactly in a gen 3 or gen 4 safari zone, Sport exactly for a gen 4 Bug Contest outside it, Poke exactly at gen 7 location 30016, and no ball requirement in every other case |
| Areas6AO.DecodeSlot | PKHeX.Core/Legality/Areas/EncounterArea6AO.cs:33-42 | the species is the little-endian word at the offset modulo 1024 and the form the word divided by 2048; the level bounds are the next two bytes |
| Areas6AO.Bit10Ignored | PKHeX.Core/Legality/Areas/EncounterArea6AO.cs:36-38 | flipping bit 10 of the slot word leaves the decoded slot unchanged |
| Areas6AO.SlotCount | PKHeX.Core/Legality/Areas/EncounterArea6AO.cs:31 | the slot count is the number of whole 4-byte slots after the 4-byte header, and 0 for a record without a full header |
| Areas6AO.MaskAndShiftAreArithmetic | PKHeX.Core/Legality/Areas/EncounterArea6AO.cs:36-38 | `& 0x3FF` and `>> 11` on the 16-bit word are remainder by 1024 and quotient by 2048 |
| Areas6AO.DecodeArea | PKHeX.Core/Legality/Areas/EncounterArea6AO.cs:20-45 | decoding fails exactly on records shorter than three bytes; otherwise the area has the given version, the little-endian location of bytes 0-1, the method byte 2, and `SlotCount` slots, slot i decoded at offset 4 + 4i |
| Areas6AO.GetAreas | PKHeX.Core/Legality/Areas/EncounterArea6AO.cs:12-18 | the table decodes exactly when every record does, one area per record in order |
| Areas6AO.DecodeEncode | PKHeX.Core/Legality/Areas/EncounterArea6AO.cs:20-45 | decoding the encoding of any representable area gives that area back |
| Areas6AO.DecodeEncodeSlot | PKHeX.Core/Legality/Areas/EncounterArea6AO.cs:35-41 | decoding an encoded slot gives the slot back |
| Areas6AO.BoostMax | PKHeX.Core/Legality/Areas/EncounterArea6AO.cs:62 | the upward widening is the DexNav boost where DexNav applies and the flute boost otherwise, never less than the flute boost |
| Areas6AO.MarkSlotDetails | PKHeX.Core/Legality/Areas/EncounterArea6AO.cs:78-92 | the White Flute is marked exactly when the slot minimum exceeds the node minimum, the Black Flute exactly when the node minimum lies 1 to 4 above the slot maximum, DexNav only for a method that allows it, and Pressure never |
| Areas6AO.FlutesExclusive | PKHeX.Core/Legality/Areas/EncounterArea6AO.cs:80-83 | for a slot whose range is not inverted the two flutes are never both marked, and neither is marked exactly when the node minimum lies in the slot range or beyond the Black Flute's reach |
| Areas6AO.FirstOfSpecies | PKHeX.Core/Legality/Areas/EncounterArea6AO.cs:57-60 | the index found is that of the first chain node of the species, with no earlier node of it |
| Areas6AO.ScanChain | PKHeX.Core/Legality/Areas/EncounterArea6AO.cs:57-73 | a slot matches exactly when the chain has a node of its species and, at the first such node, the widened level test and the form test pass; the match records that node and its markers |
| Areas6AO.ScanIgnoresLaterNodes | PKHeX.Core/Legality/Areas/EncounterArea6AO.cs:64-73 | nodes after the first of the slot's species never change the outcome, because the scan breaks there |
| Areas6AO.MatchSlots | PKHeX.Core/Legality/Areas/EncounterArea6AO.cs:55-75 | at most one match per slot; every match pairs a slot with a chain node of its species that passes the form and level tests and carries its markers; every slot whose scan succeeds is present |
| Areas6AO.MatchSlotsIsFilteredScan | PKHeX.Core/Legality/Areas/EncounterArea6AO.cs:55-75 | the matches are, one for one and in order, the scan results of exactly the slots whose scan succeeds |
| Areas6AO.GetMatchingSlots | PKHeX.Core/Legality/Areas/EncounterArea6AO.cs:53-76 | the area's matches are, in slot order, the scan results of exactly the slots whose scan succeeds; each is sound (slot of the area, node of the chain, species, form and level agree, DexNav only where allowed) |
| Areas6AO.FirstNodeDecides | PKHeX.Core/Legality/Areas/EncounterArea6AO.cs:64-68 | a slot whose species' first chain node has the wrong form is not matched, even though a later node of that species would fit |
| Areas6AO.CanDexNav | PKHeX.Core/Legality/Encounters/EncounterSlot/EncounterSlot6AO.cs:20 | DexNav applies exactly when the method byte is not Rock Smash, so a Swarm Rock Smash byte still allows it |
| Areas6AO.GetConditionString | PKHeX.Core/Legality/Encounters/EncounterSlot/EncounterSlot6AO.cs:35-46 | the report is always valid and names the White Flute, else the Black Flute, else DexNav, else none, with the lead variant exactly when Pressure is set and the condition is not DexNav |
| Areas6AO.FlagsCoexist | PKHeX.Core/Legality/Areas/EncounterArea6AO.cs:78-92 | one match can carry the White Flute and DexNav together, and its report then names only the flute |
| Areas6AO.RockSmashWindow | PKHeX.Core/Legality/Areas/EncounterArea6AO.cs:62-65 | a Rock Smash slot of levels 10 to 10 admits met level 14 and refuses 15 |
| Areas6AO.GrassDexNavWindow | PKHeX.Core/Legality/Areas/EncounterArea6AO.cs:62-92 | the same slot in grass admits level 40 through DexNav and is marked DexNav only |
| Trades.NewTrade | PKHeX.Core/Legality/Encounters/EncounterTrade/EncounterTrade.cs:23-41 | a new template has the class defaults: any gender, nature and OT gender, no fixed location or current level, shiny Never, ball 4, nicknamed, any version |
| Trades.NewTrade3 | PKHeX.Core/Legality/Encounters/EncounterTrade/EncounterTrade3.cs:12-24 | a generation 3 template has the same defaults except shiny FixedValue, and carries its PID |
| Trades.WithTID7 | PKHeX.Core/Legality/Encounters/EncounterTrade/EncounterTrade.cs:43-50 | the TID is the low 16 bits, the SID the signed upper half, the two recombine to the 32-bit value, and nothing else changes |
| Trades.GetName | PKHeX.Core/Legality/Encounters/EncounterTrade/EncounterTrade.cs:60-61 | the unsigned guard gives the name at a language inside the table and the empty string for any other language, negative ones included; the result is always empty or one of the names |
| Trades.GetNickname | PKHeX.Core/Legality/Encounters/EncounterTrade/EncounterTrade.cs:60 | the nickname for a language inside the table, else the empty string; always empty or one of the nicknames |
| Trades.GetOT | PKHeX.Core/Legality/Encounters/EncounterTrade/EncounterTrade.cs:61 | the OT name for a language inside the table, else the empty string; always empty or one of the OT names |
| Trades.HasNickname | PKHeX.Core/Legality/Encounters/EncounterTrade/EncounterTrade.cs:62 | a nickname is present only for a nicknamed template with a non-empty table, and is then the table's own entry |
| Trades.HasTrainerName | PKHeX.Core/Legality/Encounters/EncounterTrade/EncounterTrade.cs:63 | true exactly for a non-empty OT table, whose lookup at language 0 is then its first entry; without one every language gives the empty string |
| Trades.DefaultMetLocation | PKHeX.Core/Legality/Encounters/EncounterTrade/EncounterTrade.cs:65-75 | generation 1 has no default location (0), generations 2 to 5 each have their own link-trade location, and generations 6 to 8 share generation 6's |
| Trades.TradeMetLocation | PKHeX.Core/Legality/Encounters/EncounterTrade/EncounterTrade.cs:121 | a positive template location is used as is, otherwise the generation's default |
| Trades.IsMatchLevel | PKHeX.Core/Legality/Encounters/EncounterTrade/EncounterTrade.cs:259-272 | without met data, the template level must not exceed the node level; with met data the record must be met at the trade location, and then the same level rule applies before format 5 and the met level must equal the template level from format 5 on |
| Trades.LevelRuleWithoutMetData | PKHeX.Core/Legality/Encounters/EncounterTrade/EncounterTrade.cs:259-262 | without met data the level rule compares the template level with the node level only and ignores the record's met fields |
| Trades.LevelRuleFromFormat5 | PKHeX.Core/Legality/Encounters/EncounterTrade/EncounterTrade.cs:264-272 | from format 5 on, a record with met data passes exactly when met at the trade's location and level |
| Trades.IsMatchNatureGenderShiny | PKHeX.Core/Legality/Encounters/EncounterTrade/EncounterTrade.cs:274-285 | a base template passes exactly when the shiny policy holds and a fixed gender or nature equals the record's; a generation 3 template passes exactly when its PID equals the encryption constant |
| Trades.Gen3IgnoresGenderNature | PKHeX.Core/Legality/Encounters/EncounterTrade/EncounterTrade3.cs:58-61 | a generation 3 template's test does not depend on the record's gender or nature or on the shiny lookup |
| Trades.IsMatchBase | PKHeX.Core/Legality/Encounters/EncounterTrade/EncounterTrade.cs:224-257 | the template matches exactly when every check passes: IVs, nature/gender/shiny, TID, SID, level rule, current level, form, OT gender, egg location and version |
| Trades.IsMatch | PKHeX.Core/Legality/Encounters/EncounterTrade/EncounterTrade3.cs:26-35 | the full test is the base test, and for a generation 3 template additionally that the record's contest stats (when it has any) are not below the template's |
| Trades.SynthesisLevel | PKHeX.Core/Legality/Encounters/EncounterTrade/EncounterTrade.cs:92-94 | the positive current level, else the template level when non-zero, else exactly 1; never 0 |
| Trades.SynthesisSpecies | PKHeX.Core/Legality/Encounters/EncounterTrade/EncounterTrade.cs:96-98 | the species is one past the template's exactly for a trade that evolves on arrival |
| Trades.EdgeCaseOf | PKHeX.Core/Legality/Encounters/EncounterTrade/EncounterTrade.cs:192-222 | each language fix-up applies exactly when its guard holds and no earlier one does (the Meister Magikarp guard shadows the Diamond/Pearl one) |
| Trades.UpdateEdgeCase | PKHeX.Core/Legality/Encounters/EncounterTrade/EncounterTrade.cs:192-222 | only the language and the two names change, and each fix-up sets the language or names the source prescribes |
| Trades.MagikarpPrecedesDP | PKHeX.Core/Legality/Encounters/EncounterTrade/EncounterTrade.cs:201-210 | the Meister Magikarp trade in a Diamond or Pearl game ends up German or English, never Japanese |
| Trades.EdgeCaseReadsNamesOnly | PKHeX.Core/Legality/Encounters/EncounterTrade/EncounterTrade.cs:192-222 | the fix-ups read only the game version, the language and the two names, so records agreeing on those come out with the same language and names |
| Trades.WrittenLanguage | PKHeX.Core/Legality/Encounters/EncounterTrade/EncounterTrade.cs:91-106 | the sanitised language; the OT name is the fixed generation 1 string for a format 1 record, else the trade's OT name for that language, else the trainer's; the nickname is the trade's for that language when it has one, else empty |
| Trades.ApplyDetails | PKHeX.Core/Legality/Encounters/EncounterTrade/EncounterTrade.cs:88-159 | the built record has the (possibly evolved) species, the form, IDs, ball, egg location and fateful flag of the template; met data exactly unless format 2 outside Crystal (OT gender 0 then); its language and names are what the fix-ups make of the written ones (`WrittenLanguage`), and exactly those when no fix-up applies; a fixed nature is written, and so is a fixed gender outside generation 3; a generation 3 trade writes its PID, the PID's gender and its contest stats |
| Trades.SynthesisPassesChecks | PKHeX.Core/Legality/Encounters/EncounterTrade/EncounterTrade.cs:88-272 | a record carrying what synthesis wrote passes the template's TID, SID, OT-gender, egg-location and level checks, and its nature/gender/shiny test: for generation 3 when its encryption constant is the written PID, otherwise when it carries the written gender and nature and the shiny policy holds |
| StaticGenerator.GetMatchingStaticEncounters | PKHeX.Core/Legality/Encounters/Generator/EncounterStaticGenerator.cs:39-59 | the two-phase loop emits the non-deferred matching candidates in order followed by the deferred matching ones in order |
| StaticGenerator.MatchingIsSoundAndComplete | PKHeX.Core/Legality/Encounters/Generator/EncounterStaticGenerator.cs:39-59 | every emitted template is a candidate that matches some chain node, and every such candidate is emitted |
| StaticGenerator.ConfidentBeforeDeferred | PKHeX.Core/Legality/Encounters/Generator/EncounterStaticGenerator.cs:50-58 | every non-deferred match precedes every deferred one, and each group keeps the candidates' order |
| StaticGenerator.EmittedAtMostOnce | PKHeX.Core/Legality/Encounters/Generator/EncounterStaticGenerator.cs:43-58 | the output, as a multiset, is contained in the candidates: no candidate is emitted twice |
| StaticGenerator.TableGSC | PKHeX.Core/Legality/Encounters/Generator/EncounterStaticGenerator.cs:156-166 | Gold/Silver's table exactly when Crystal is ruled out, Crystal's alone exactly for a format 2 record with met data, otherwise the combined table |
| StaticGenerator.TableFor | PKHeX.Core/Legality/Encounters/Generator/EncounterStaticGenerator.cs:98-154 | no table exactly for versions outside the listed ones; the generation 1 table exactly for the generation 1 versions; the GSC choice exactly for the generation 2 versions |
| StaticGenerator.TablesOfLaterVersionsDiffer | PKHeX.Core/Legality/Encounters/Generator/EncounterStaticGenerator.cs:118-150 | from generation 3 on, two distinct versions never share a table |
| StaticGenerator.TableForOwn34 | PKHeX.Core/Legality/Encounters/Generator/EncounterStaticGenerator.cs:118-129 | each generation 3 and 4 version (Ruby through SoulSilver, Colosseum/XD included) gets the table listed for it |
| StaticGenerator.TableForOwn56 | PKHeX.Core/Legality/Encounters/Generator/EncounterStaticGenerator.cs:131-139 | each generation 5 and 6 version gets the table listed for it |
| StaticGenerator.TableForOwn78 | PKHeX.Core/Legality/Encounters/Generator/EncounterStaticGenerator.cs:141-150 | each generation 7 and 8 version, Let's Go included, gets the table listed for it |
| StaticGenerator.ResolveSource | PKHeX.Core/Legality/Encounters/Generator/EncounterStaticGenerator.cs:22-23 | an unspecified source means the record's own version |
| StaticGenerator.GetPossible | PKHeX.Core/Legality/Encounters/Generator/EncounterStaticGenerator.cs:20-29 | the candidates are the resolved table filtered, in order and with multiplicity, by species in the chain and, unless allowed, not cartridge-era-only; so they form a subsequence of the table |
| StaticGenerator.UnknownVersionHasNoCandidates | PKHeX.Core/Legality/Encounters/Generator/EncounterStaticGenerator.cs:152 | a record of a version without static encounters has no candidates |
| StaticGenerator.GetValidStaticEncounter | PKHeX.Core/Legality/Encounters/Generator/EncounterStaticGenerator.cs:31-37 | the result is the two-phase matching of the candidates, and every result has a species of the chain and matches some node |
| StaticGenerator.GetVCStaticTransferEncounter | PKHeX.Core/Legality/Encounters/Generator/EncounterStaticGenerator.cs:70-81 | fails with an argument error exactly for a record from neither virtual console; otherwise the generation follows VC1/VC2, the met level is kept, and the species is the record's unless it lies past that generation's last species |
| Static5N.NewStatic5N | PKHeX.Core/Legality/Encounters/EncounterStatic/EncounterStatic5N.cs:6-9 | the template keeps its PID and defaults to shiny FixedValue |
| Static5N.IsMatch | PKHeX.Core/Legality/Encounters/EncounterStatic/EncounterStatic5N.cs:25-30 | a PID mismatch rejects, and otherwise the generation 5 static test decides |
| Static5N.SetPINGA | PKHeX.Core/Legality/Encounters/EncounterStatic/EncounterStatic5N.cs:11-23 | the fixed PID, the template's nature, the gender of the PID, and an ability index whose doubling brackets the ability number; nothing else changes |
| Static5N.AbilityShiftIsSlot | PKHeX.Core/Legality/Encounters/EncounterStatic/EncounterStatic5N.cs:22 | for the ability numbers 1, 2 and 4, `ability >> 1` is an index whose power of two is the ability number |
| Static5N.SetNPokemonData | PKHeX.Core/Legality/Encounters/EncounterStatic/EncounterStatic5N.cs:32-39 | six IVs of 30, TID 2, SID 0, the N marker and the language's OT name; nothing else changes |
| Static5N.SynthesisPassesPidGate | PKHeX.Core/Legality/Encounters/EncounterStatic/EncounterStatic5N.cs:11-30 | a record with the PID synthesis wrote passes the PID gate and is decided by the static test alone |
| Encounters7b.RareSpeciesAt | PKHeX.Core/Legality/Encounters/Data/Encounters7b.cs:122 | the species listed are those of the rare spawns listing the location byte, one per such spawn, in order |
| Encounters7b.ExtraSlot | PKHeX.Core/Legality/Encounters/Data/Encounters7b.cs:127-128 | the appended slot has the rare species; flying species span levels 3 to 56 and others copy the first slot's range |
| Encounters7b.AddRareSpawns | PKHeX.Core/Legality/Encounters/Data/Encounters7b.cs:119-134 | an area no rare spawn lists is unchanged; otherwise fails exactly when it has no slots, and else keeps its slots as a prefix followed by one extra slot per listed species in order |
| Encounters7b.ManuallyAddRareSpawns | PKHeX.Core/Legality/Encounters/Data/Encounters7b.cs:117-135 | the table succeeds exactly when every area does, area by area |
| Encounters7b.RareSpeciesFollowDeclarations | PKHeX.Core/Legality/Encounters/Data/Encounters7b.cs:94-122 | the listed rare spawns are a subsequence of the declarations |
| Encounters7b.RareSpeciesAtLocation5 | PKHeX.Core/Legality/Encounters/Data/Encounters7b.cs:92-115 | location 5 lists Charmander, Charizard, the three birds and Dragonite, in that order |
| Encounters7b.LocationComparedAsByte | PKHeX.Core/Legality/Encounters/Data/Encounters7b.cs:122 | a location and its low byte list the same species |
| Encounters7b.SetVersion | PKHeX.Core/Legality/Encounters/Data/Encounters7b.cs:19-20 | a template without a version takes the table's, one with a version keeps it, and nothing else changes |
| Encounters7b.TradeGG | PKHeX.Core/Legality/Encounters/Data/Encounters7b.cs:68-77 | a Let's Go trade is generation 7, shiny Random, not nicknamed, its TID/SID recombine to the 32-bit ID, and its version is its own or Let's Go |
| Encounters7b.TradeGiftGGInvariants | PKHeX.Core/Legality/Encounters/Data/Encounters7b.cs:65-78 | every trade of the table is generation 7, shiny Random, without a nickname, and belongs to Pikachu, Eevee or both |
| Encounters7b.TradeGiftGGOffers | PKHeX.Core/Legality/Encounters/Data/Encounters7b.cs:65-78 | the ten trades match, in order, a second transcription of the offers of Rattata, Sandshrew, Vulpix, Diglett, Meowth, Grimer, Raichu, Marowak, Exeggutor and Geodude: species, level, alternate form, OT table T1-T8, the combined trainer ID, OT gender, fixed IVs and game |

## Left out

- Randomness: encryption constants, random PIDs and IVs, memories, the relearn
  move drawn for DexNav slots, and the clock read for met dates are not modelled.
- Trainer plumbing is not modelled: `ITrainerInfo.ApplyTo`, handling-trainer
  data, move sets (`SetMoves`) and base friendship.
- External lookups enter as parameters and are not defined here:
  - the evolution table (`GetValidPreEvolutions`);
  - the slot level-window test (`IsLevelWithinRange`);
  - the base static tests (`EncounterStatic.IsMatch` / `IsMatchDeferred`);
  - `Shiny.IsValid`, `IsFormChangeable`, the fixed-IV test and `IsContestBelow`;
  - `GetSafeLanguage`, `GetCompatibleVersion` and `GetGenderFromPID`;
  - the safari-zone tables, the link-trade location constants and the
    cartridge-era-only version set.
- `EncounterCriteria` is not modelled. Where a template fixes a value, the criteria is taken to pass it through unchanged: the PID-derived gender (`genderFromPid`, `genderOf`), a trade's fixed nature and gender, and N's template nature and ability. Where the template leaves a value open, the criteria's choice is not modelled.
- Static5N.SetPINGA: the criteria's gender choice is folded into the `genderOf` parameter, and the random IVs it rolls are left out.
- Trades.ApplyDetails: the language is the sanitiser's result. Left out: handling-trainer data; random encryption constants for format 6+; the ability and IVs that SetPINGA writes; a nature or gender that the template leaves random; and the random PID of trades before and after generation 3.
- `GetStaticLocation` is left out; it is a helper outside the matching path.
- The table contents are left out: the static encounter tables and their templates, the Let's Go static table, the localized OT tables and N's OT names. All enter as parameters, and `BinLinker` unpacking is not modelled.
- Versions.Contains: group membership of game versions is a simplified stand-in for `GameVersion.Contains`, whose source is not part of this model.
- Encounters7b.SetVersion: the behaviour of `SetVersion` (fill in the version only when unset) is assumed, since its source is not part of this model.
- The bulk-editing filters and the Swarm and GO slot classes are not modelled.
- Concurrency and static initialisation order are not modelled.

=== FILE: areas_6ao.dfy ===
/** Omega Ruby / Alpha Sapphire wild areas (EncounterArea6AO) and their slots
    (EncounterSlot6AO): decoding the packed per-area records, matching the
    slots against an origin chain with level windows widened by the flutes
    and DexNav chains, and the condition annotations of a match. */
module Areas6AO {
  import opened Common
  import opened Versions
  import opened Creatures
  import opened SlotTypes

  /** A wild slot: species, form (31 stands for any form) and level range. */
  datatype Slot6AO = Slot6AO(species: int, form: int, levelMin: int, levelMax: int)

  /** An area owns its slots; the slots read location and method from it. */
  datatype Area6AO = Area6AO(version: GameVersion, location: int, slotType: SlotType, slots: seq<Slot6AO>)

  /** The condition markers of one match. They are set on a private copy of
      the slot, never on the area's own slots. */
  datatype SlotFlags = SlotFlags(pressure: bool, dexNav: bool, whiteFlute: bool, blackFlute: bool)

  /** A slot matched against a chain node, with the markers that explain its level. */
  datatype SlotMatch = SlotMatch(slot: Slot6AO, evo: EvoCriteria, flags: SlotFlags)

  const FluteBoostMin: int := 4   // the White Flute lowers levels
  const FluteBoostMax: int := 4   // the Black Flute raises levels
  const DexNavBoost: int := 30    // longest DexNav chain
  const RandomForm: int := 31

  // ---------------------------------------------------------------------
  // Decoding.

  /** Slots in a record of `len` bytes: `(len - 4) / 4` with C#'s division,
      which truncates toward zero, so a 3-byte record has none. */
  function SlotCount(len: nat): (r: nat)
    ensures len >= 4 ==> 4 + 4 * r <= len < 8 + 4 * r
    ensures len < 4 ==> r == 0
  {
    if len >= 4 then (len - 4) / 4 else 0
  }

  /** The slot stored at `offset`: a little-endian u16 whose low 10 bits are
      the species and whose bits 11 and up are the form, then the minimum
      and maximum level bytes. Bit 10 is read by neither field. */
  function DecodeSlot(data: seq<Byte>, offset: nat): (s: Slot6AO)
    requires offset + 4 <= |data|
    ensures 0 <= s.species < 1024 && 0 <= s.form < 32
    ensures 0 <= s.levelMin < 256 && 0 <= s.levelMax < 256
    ensures var word := data[offset] as int + 256 * data[offset + 1] as int;
            s.species == word % 1024 && s.form == word / 2048
    ensures s.levelMin == data[offset + 2] && s.levelMax == data[offset + 3]
  {
    var specForm: int := data[offset] as int + 256 * data[offset + 1] as int;
    Slot6AO(specForm % 1024, specForm / 2048, data[offset + 2], data[offset + 3])
  }

  /** `SpecForm & 0x3FF` and `SpecForm >> 11` are the remainder and quotient
      used by DecodeSlot. */
  lemma MaskAndShiftAreArithmetic(specForm: bv16)
    ensures specForm & 0x3FF == specForm % 1024
    ensures specForm >> 11 == specForm / 2048
  {
  }

  /** Remainder and quotient by 1024 and by 2048 are determined by any
      decomposition with an in-range remainder. */
  lemma DivModOf1024(x: int, q: int, r: int)
    requires x == 1024 * q + r && 0 <= r < 1024
    ensures x / 1024 == q && x % 1024 == r
  {
  }

  lemma DivModOf2048(x: int, q: int, r: int)
    requires x == 2048 * q + r && 0 <= r < 2048
    ensures x / 2048 == q && x % 2048 == r
  {
  }

  /** Flipping bit 2 of the high byte moves the word by 1024 without crossing
      a multiple of 2048. */
  lemma FlipBit10Arithmetic(lo: int, hi: int, flipped: int)
    requires 0 <= lo < 256 && 0 <= hi < 256
    requires flipped == if (hi / 4) % 2 == 0 then hi + 4 else hi - 4
    ensures (lo + 256 * flipped) % 1024 == (lo + 256 * hi) % 1024
    ensures (lo + 256 * flipped) / 2048 == (lo + 256 * hi) / 2048
  {
    var q, b, m := hi / 8, (hi / 4) % 2, hi % 4;
    assert hi == 8 * q + 4 * b + m;
    var low := 256 * m + lo;
    assert 0 <= low < 1024;
    assert lo + 256 * hi == 2048 * q + 1024 * b + low;
    assert lo + 256 * flipped == 2048 * q + 1024 * (1 - b) + low;
    DivModOf1024(lo + 256 * hi, 2 * q + b, low);
    DivModOf1024(lo + 256 * flipped, 2 * q + 1 - b, low);
    DivModOf2048(lo + 256 * hi, q, 1024 * b + low);
    DivModOf2048(lo + 256 * flipped, q, 1024 * (1 - b) + low);
  }

  /** Bit 10 of the slot word (bit 2 of its high byte) is read by neither the
      species mask nor the form shift: flipping it decodes to the same slot. */
  lemma Bit10Ignored(data: seq<Byte>, offset: nat)
    requires offset + 4 <= |data|
    ensures var hi := data[offset + 1];
            var flipped := if (hi / 4) % 2 == 0 then hi + 4 else hi - 4;
            0 <= flipped < 256 && DecodeSlot(data[offset + 1 := flipped], offset) == DecodeSlot(data, offset)
  {
    var hi: int := data[offset + 1];
    var flipped: int := if (hi / 4) % 2 == 0 then hi + 4 else hi - 4;
    FlipBit10Arithmetic(data[offset], hi, flipped);
  }

  /** One area record: location (little-endian u16), method byte, one unused
      byte, then 4-byte slots. Reading the header of a record shorter than
      three bytes runs off its end. */
  function DecodeArea(data: seq<Byte>, game: GameVersion): (r: Result<Area6AO>)
    ensures r.Ok? <==> |data| >= 3
    ensures r.Ok? ==> r.value.version == game && 0 <= r.value.location < 0x1_0000
    ensures r.Ok? ==> 4 * |r.value.slots| <= |data| && |data| < 4 * |r.value.slots| + 8
    ensures r.Ok? ==> |r.value.slots| == SlotCount(|data|)
    ensures r.Ok? ==> r.value.location == data[0] as int + 256 * data[1] as int && r.value.slotType == data[2]
    ensures r.Ok? ==> forall i :: 0 <= i < |r.value.slots| ==>
                        4 + 4 * i + 4 <= |data| && r.value.slots[i] == DecodeSlot(data, 4 + 4 * i)
  {
    if |data| < 3 then Fail(IndexOutOfRange)
    else
      var count := SlotCount(|data|);
      Ok(Area6AO(game, data[0] as int + 256 * data[1] as int, data[2],
                 seq(count, i requires 0 <= i < count => DecodeSlot(data, 4 + 4 * i))))
  }

  /** Decodes every record; one short record makes the whole table fail. */
  method GetAreas(input: seq<seq<Byte>>, game: GameVersion) returns (r: Result<seq<Area6AO>>)
    ensures r.Ok? <==> forall i :: 0 <= i < |input| ==> |input[i]| >= 3
    ensures r.Ok? ==> |r.value| == |input|
    ensures r.Ok? ==> forall i :: 0 <= i < |input| ==> DecodeArea(input[i], game) == Ok(r.value[i])
  {
    var areas: seq<Area6AO> := [];
    var i := 0;
    while i < |input|
      invariant 0 <= i <= |input|
      invariant |areas| == i
      invariant forall k :: 0 <= k < i ==> |input[k]| >= 3
      invariant forall k :: 0 <= k < i ==> DecodeArea(input[k], game) == Ok(areas[k])
    {
      var a := DecodeArea(input[i], game);
      if a.Fail? {
        return Fail(a.error);
      }
      areas := areas + [a.value];
      i := i + 1;
    }
    return Ok(areas);
  }

  // Encoding, the inverse of decoding for representable areas.

  predicate EncodableSlot(s: Slot6AO) {
    0 <= s.species < 1024 && 0 <= s.form < 32 && 0 <= s.levelMin < 256 && 0 <= s.levelMax < 256
  }

  predicate Encodable(a: Area6AO) {
    && 0 <= a.location < 0x1_0000
    && forall k :: 0 <= k < |a.slots| ==> EncodableSlot(a.slots[k])
  }

  function EncodeSlot(s: Slot6AO): (r: seq<Byte>)
    requires EncodableSlot(s)
    ensures |r| == 4
  {
    var specForm := s.species + s.form * 2048;
    [specForm % 256, specForm / 256, s.levelMin, s.levelMax]
  }

  function EncodeArea(a: Area6AO): (r: seq<Byte>)
    requires Encodable(a)
    ensures |r| == 4 + 4 * |a.slots|
  {
    [a.location % 256, a.location / 256, a.slotType, 0]
      + seq(4 * |a.slots|, j requires 0 <= j < 4 * |a.slots| => EncodeSlot(a.slots[j / 4])[j % 4])
  }

  lemma DecodeEncodeSlot(s: Slot6AO)
    requires EncodableSlot(s)
    ensures DecodeSlot(EncodeSlot(s), 0) == s
  {
    var specForm := s.species + s.form * 2048;
    assert specForm % 256 + 256 * (specForm / 256) == specForm;
    assert specForm % 1024 == s.species;
    assert specForm / 2048 == s.form;
  }

  lemma DecodeSlotReadsFourBytes(data: seq<Byte>, offset: nat)
    requires offset + 4 <= |data|
    ensures DecodeSlot(data, offset) == DecodeSlot(data[offset..offset + 4], 0)
  {
  }

  lemma EncodedSlotAt(a: Area6AO, i: nat)
    requires Encodable(a) && i < |a.slots|
    ensures EncodeArea(a)[4 + 4 * i..4 + 4 * i + 4] == EncodeSlot(a.slots[i])
  {
    var data := EncodeArea(a);
    forall k | 0 <= k < 4
      ensures data[4 + 4 * i + k] == EncodeSlot(a.slots[i])[k]
    {
      var j := 4 * i + k;
      assert j / 4 == i && j % 4 == k;
    }
  }

  lemma EncodedHeader(a: Area6AO)
    requires Encodable(a)
    ensures var data := EncodeArea(a);
            data[0] as int + 256 * data[1] as int == a.location && data[2] == a.slotType
    ensures SlotCount(|EncodeArea(a)|) == |a.slots|
  {
    var data := EncodeArea(a);
    assert data[0] == a.location % 256 && data[1] == a.location / 256;
  }

  /** A slot sequence that agrees with the record at every slot offset is
      the one the decoder builds. */
  lemma DecodedSlotsAre(data: seq<Byte>, slots: seq<Slot6AO>)
    requires 4 + 4 * |slots| <= |data|
    requires forall i :: 0 <= i < |slots| ==> DecodeSlot(data, 4 + 4 * i) == slots[i]
    ensures seq(|slots|, i requires 0 <= i < |slots| => DecodeSlot(data, 4 + 4 * i)) == slots
  {
  }

  /** Decoding an encoded area gives the area back. */
  lemma DecodeEncode(a: Area6AO)
    requires Encodable(a)
    ensures DecodeArea(EncodeArea(a), a.version) == Ok(a)
  {
    var data := EncodeArea(a);
    var n := |a.slots|;
    EncodedHeader(a);
    forall i | 0 <= i < n
      ensures DecodeSlot(data, 4 + 4 * i) == a.slots[i]
    {
      DecodeSlotReadsFourBytes(data, 4 + 4 * i);
      EncodedSlotAt(a, i);
      DecodeEncodeSlot(a.slots[i]);
    }
    DecodedSlotsAre(data, a.slots);
  }

  // ---------------------------------------------------------------------
  // Matching.

  /** The external level-window test (EncounterSlot.IsLevelWithinRange): is
      `level` within the slot's range lowered by `minDecrease` and raised by
      `maxIncrease`? */
  type LevelRangeCheck = (Slot6AO, int, int, int) -> bool

  /** DexNav chains are not available for Rock Smash; the method is compared
      as a whole byte. */
  function CanDexNav(area: Area6AO): (r: bool)
    ensures r <==> area.slotType != Rock_Smash
    ensures area.slotType == Compose(MRockSmash, true) ==> r
  {
    area.slotType != Rock_Smash
  }

  /** How far above its maximum a slot's level may have been raised. */
  function BoostMax(area: Area6AO): (r: int)
    ensures r == (if CanDexNav(area) then DexNavBoost else FluteBoostMax)
    ensures r >= FluteBoostMax
  {
    if area.slotType != Rock_Smash then DexNavBoost else FluteBoostMax
  }

  predicate FormAccepted(slotForm: int, evoForm: int) {
    slotForm == evoForm || slotForm == RandomForm
  }

  /** The markers that explain a match's level: the White Flute when the slot
      minimum exceeds the node's minimum level, the Black Flute when the node's
      minimum level lies within four levels above the slot maximum, and a
      DexNav chain when the method allows one and the level, an egg-move
      relearn slot or the hidden ability point to it. */
  function MarkSlotDetails(area: Area6AO, pkm: Creature, slot: Slot6AO, evo: EvoCriteria): (f: SlotFlags)
    ensures !f.pressure
    ensures f.whiteFlute <==> slot.levelMin > evo.minLevel
    ensures f.blackFlute <==> slot.levelMax + 1 <= evo.minLevel <= slot.levelMax + FluteBoostMax
    ensures f.dexNav ==> CanDexNav(area)
    ensures f.dexNav <==> CanDexNav(area) && (slot.levelMax != evo.minLevel || pkm.relearnMove1 != 0 || pkm.abilityNumber == 4)
  {
    var white := slot.levelMin > evo.minLevel;
    var black := slot.levelMax + 1 <= evo.minLevel && evo.minLevel <= slot.levelMax + FluteBoostMax;
    var dexNav := CanDexNav(area) && (slot.levelMax != evo.minLevel || pkm.relearnMove1 != 0 || pkm.abilityNumber == 4);
    SlotFlags(false, dexNav, white, black)
  }

  /** For a slot whose range is not inverted the two flutes exclude each
      other, and neither is marked exactly when the node's minimum level
      lies within the slot's range or beyond the Black Flute's reach. */
  lemma FlutesExclusive(area: Area6AO, pkm: Creature, slot: Slot6AO, evo: EvoCriteria)
    requires slot.levelMin <= slot.levelMax
    ensures var f := MarkSlotDetails(area, pkm, slot, evo);
            && !(f.whiteFlute && f.blackFlute)
            && (!f.whiteFlute && !f.blackFlute <==>
                  slot.levelMin <= evo.minLevel <= slot.levelMax || evo.minLevel > slot.levelMax + FluteBoostMax)
  {
  }

  /** Index of the first chain node of `species` (|chain| if none). */
  function FirstOfSpecies(chain: seq<EvoCriteria>, species: int): (j: nat)
    ensures j <= |chain|
    ensures forall k :: 0 <= k < j ==> chain[k].species != species
    ensures j < |chain| ==> chain[j].species == species
  {
    if |chain| == 0 then 0
    else if chain[0].species == species then 0
    else 1 + FirstOfSpecies(chain[1..], species)
  }

  /** One slot against the chain: the scan stops at the first node of the
      slot's species, and a level or form failure there rejects the slot. */
  function ScanChain(area: Area6AO, pkm: Creature, slot: Slot6AO, chain: seq<EvoCriteria>,
                     inRange: LevelRangeCheck): (r: Option<SlotMatch>)
    ensures var j := FirstOfSpecies(chain, slot.species);
            r.Some? <==> (j < |chain|
                          && inRange(slot, pkm.metLevel, FluteBoostMin, BoostMax(area))
                          && FormAccepted(slot.form, chain[j].form))
    ensures var j := FirstOfSpecies(chain, slot.species);
            r.Some? ==> r.value == SlotMatch(slot, chain[j], MarkSlotDetails(area, pkm, slot, chain[j]))
    decreases |chain|
  {
    if |chain| == 0 then None
    else
      var evo := chain[0];
      if slot.species != evo.species then ScanChain(area, pkm, slot, chain[1..], inRange)
      else if !inRange(slot, pkm.metLevel, FluteBoostMin, BoostMax(area)) then None
      else if !FormAccepted(slot.form, evo.form) then None
      else Some(SlotMatch(slot, evo, MarkSlotDetails(area, pkm, slot, evo)))
  }

  /** Nodes after the first one of the slot's species never affect the outcome. */
  lemma {:induction false} ScanIgnoresLaterNodes(area: Area6AO, pkm: Creature, slot: Slot6AO,
                                                 chain: seq<EvoCriteria>, rest: seq<EvoCriteria>,
                                                 inRange: LevelRangeCheck)
    requires FirstOfSpecies(chain, slot.species) < |chain|
    ensures ScanChain(area, pkm, slot, chain + rest, inRange) == ScanChain(area, pkm, slot, chain, inRange)
    decreases |chain|
  {
    if chain[0].species != slot.species {
      assert (chain + rest)[1..] == chain[1..] + rest;
      ScanIgnoresLaterNodes(area, pkm, slot, chain[1..], rest, inRange);
    }
  }

  /** The matches of `slots`, in slot order, at most one per slot. */
  function MatchSlots(area: Area6AO, pkm: Creature, slots: seq<Slot6AO>, chain: seq<EvoCriteria>,
                      inRange: LevelRangeCheck): (r: seq<SlotMatch>)
    ensures |r| <= |slots|
    ensures forall k :: 0 <= k < |r| ==>
              && r[k].slot in slots
              && r[k].evo in chain
              && r[k].evo.species == r[k].slot.species
              && FormAccepted(r[k].slot.form, r[k].evo.form)
              && inRange(r[k].slot, pkm.metLevel, FluteBoostMin, BoostMax(area))
              && r[k].flags == MarkSlotDetails(area, pkm, r[k].slot, r[k].evo)
    ensures forall i :: 0 <= i < |slots| && ScanChain(area, pkm, slots[i], chain, inRange).Some? ==>
              ScanChain(area, pkm, slots[i], chain, inRange).value in r
    decreases |slots|
  {
    if |slots| == 0 then []
    else
      var init := slots[..|slots| - 1];
      var last := slots[|slots| - 1];
      var found := ScanChain(area, pkm, last, chain, inRange);
      MatchSlots(area, pkm, init, chain, inRange) + (if found.Some? then [found.value] else [])
  }

  /** The slots whose scan succeeds, in slot order. */
  function MatchingSlotsOf(area: Area6AO, pkm: Creature, slots: seq<Slot6AO>, chain: seq<EvoCriteria>,
                           inRange: LevelRangeCheck): seq<Slot6AO> {
    Filter(slots, s => ScanChain(area, pkm, s, chain, inRange).Some?)
  }

  /** MatchSlots reports, in slot order and once each, exactly the slots whose
      scan succeeds, each with the match its scan produced. */
  lemma {:induction false} MatchSlotsIsFilteredScan(area: Area6AO, pkm: Creature, slots: seq<Slot6AO>,
                                                    chain: seq<EvoCriteria>, inRange: LevelRangeCheck)
    ensures var ok := MatchingSlotsOf(area, pkm, slots, chain, inRange);
            var r := MatchSlots(area, pkm, slots, chain, inRange);
            && |r| == |ok|
            && forall k :: 0 <= k < |r| ==>
                 ScanChain(area, pkm, ok[k], chain, inRange).Some?
                 && r[k] == ScanChain(area, pkm, ok[k], chain, inRange).value
    decreases |slots|
  {
    if |slots| > 0 {
      var init := slots[..|slots| - 1];
      var last := slots[|slots| - 1];
      MatchSlotsIsFilteredScan(area, pkm, init, chain, inRange);
      var okInit := MatchingSlotsOf(area, pkm, init, chain, inRange);
      var rInit := MatchSlots(area, pkm, init, chain, inRange);
      var found := ScanChain(area, pkm, last, chain, inRange);
      var ok := MatchingSlotsOf(area, pkm, slots, chain, inRange);
      var r := MatchSlots(area, pkm, slots, chain, inRange);
      if found.Some? {
        assert ok == okInit + [last];
        assert r == rInit + [found.value];
      } else {
        assert ok == okInit;
        assert r == rInit;
      }
    }
  }

  /** The area's matches for a creature whose origin chain is `chain`. */
  function GetMatchingSlots(area: Area6AO, pkm: Creature, chain: seq<EvoCriteria>,
                            inRange: LevelRangeCheck): (r: seq<SlotMatch>)
    ensures |r| <= |area.slots|
    ensures forall k :: 0 <= k < |r| ==>
              && r[k].slot in area.slots
              && r[k].evo in chain
              && r[k].evo.species == r[k].slot.species
              && FormAccepted(r[k].slot.form, r[k].evo.form)
              && inRange(r[k].slot, pkm.metLevel, FluteBoostMin, BoostMax(area))
              && (r[k].flags.dexNav ==> CanDexNav(area))
    ensures forall i :: 0 <= i < |area.slots| && ScanChain(area, pkm, area.slots[i], chain, inRange).Some? ==>
              ScanChain(area, pkm, area.slots[i], chain, inRange).value in r
    ensures var ok := MatchingSlotsOf(area, pkm, area.slots, chain, inRange);
            && |r| == |ok|
            && forall k :: 0 <= k < |r| ==>
                 ScanChain(area, pkm, ok[k], chain, inRange).Some?
                 && r[k] == ScanChain(area, pkm, ok[k], chain, inRange).value
  {
    MatchSlotsIsFilteredScan(area, pkm, area.slots, chain, inRange);
    MatchSlots(area, pkm, area.slots, chain, inRange)
  }

  // ---------------------------------------------------------------------
  // Condition text.

  datatype Condition =
    | WhiteFluteLead | WhiteFlute | BlackFluteLead | BlackFlute | DexNav | PlainLead | Plain

  datatype ConditionReport = ConditionReport(condition: Condition, valid: bool)

  /** The condition shown for a match: the White Flute before the Black Flute
      before DexNav before none, with the lead-ability variants when
      Pressure is set. The report is always valid. */
  function GetConditionString(f: SlotFlags): (r: ConditionReport)
    ensures r.valid
    ensures r.condition in {WhiteFluteLead, WhiteFlute} <==> f.whiteFlute
    ensures r.condition in {BlackFluteLead, BlackFlute} <==> !f.whiteFlute && f.blackFlute
    ensures r.condition == DexNav <==> !f.whiteFlute && !f.blackFlute && f.dexNav
    ensures r.condition in {Plain, PlainLead} <==> !f.whiteFlute && !f.blackFlute && !f.dexNav
    ensures r.condition in {WhiteFluteLead, BlackFluteLead, PlainLead} <==> f.pressure && r.condition != DexNav
  {
    if f.whiteFlute then ConditionReport(if f.pressure then WhiteFluteLead else WhiteFlute, true)
    else if f.blackFlute then ConditionReport(if f.pressure then BlackFluteLead else BlackFlute, true)
    else if f.dexNav then ConditionReport(DexNav, true)
    else ConditionReport(if f.pressure then PlainLead else Plain, true)
  }

  // ---------------------------------------------------------------------
  // Worked scenarios, with the window test read as an inclusive range
  // widened by the two boosts.

  function WidenedWindow(slot: Slot6AO, level: int, minDecrease: int, maxIncrease: int): bool {
    slot.levelMin - minDecrease <= level <= slot.levelMax + maxIncrease
  }

  /** The markers are independent: one match can carry the White Flute and
      DexNav together, and the report then names only the flute. */
  lemma FlagsCoexist()
    ensures var area := Area6AO(OR, 5, Grass, [Slot6AO(74, 0, 10, 12)]);
            var f := MarkSlotDetails(area, Blank, area.slots[0], EvoCriteria(74, 0, 8, 8));
            f.whiteFlute && f.dexNav && GetConditionString(f).condition == WhiteFlute
  {
  }

  /** A Rock Smash slot [10, 10] admits a met level up to 14 (Black Flute
      reach) but not 15: no DexNav widening applies. */
  lemma RockSmashWindow()
    ensures var area := Area6AO(OR, 5, Rock_Smash, [Slot6AO(74, 0, 10, 10)]);
            && |GetMatchingSlots(area, Blank.(species := 74, metLevel := 14), [EvoCriteria(74, 0, 14, 14)], WidenedWindow)| == 1
            && GetMatchingSlots(area, Blank.(species := 74, metLevel := 15), [EvoCriteria(74, 0, 15, 15)], WidenedWindow) == []
  {
    var area := Area6AO(OR, 5, Rock_Smash, [Slot6AO(74, 0, 10, 10)]);
    assert area.slots[..0] == [];
    assert MatchSlots(area, Blank.(species := 74, metLevel := 14), area.slots[..0], [EvoCriteria(74, 0, 14, 14)], WidenedWindow) == [];
    assert MatchSlots(area, Blank.(species := 74, metLevel := 15), area.slots[..0], [EvoCriteria(74, 0, 15, 15)], WidenedWindow) == [];
  }

  /** The scan stops at the first node of the slot's species: a form
      mismatch there rejects the slot even though a later node of the same
      species has the slot's form. */
  lemma FirstNodeDecides()
    ensures var area := Area6AO(OR, 5, Grass, [Slot6AO(74, 0, 10, 10)]);
            GetMatchingSlots(area, Blank.(species := 74, metLevel := 10),
                             [EvoCriteria(74, 1, 10, 10), EvoCriteria(74, 0, 10, 10)], WidenedWindow) == []
  {
    var area := Area6AO(OR, 5, Grass, [Slot6AO(74, 0, 10, 10)]);
    assert area.slots[..0] == [];
    assert MatchSlots(area, Blank.(species := 74, metLevel := 10), area.slots[..0],
                      [EvoCriteria(74, 1, 10, 10), EvoCriteria(74, 0, 10, 10)], WidenedWindow) == [];
  }

  /** The same slot in grass admits level 40 through a DexNav chain and marks
      it as such, with neither flute. */
  lemma GrassDexNavWindow()
    ensures var area := Area6AO(OR, 5, Grass, [Slot6AO(74, 0, 10, 10)]);
            var r := GetMatchingSlots(area, Blank.(species := 74, metLevel := 40), [EvoCriteria(74, 0, 40, 40)], WidenedWindow);
            |r| == 1 && r[0].flags == SlotFlags(false, true, false, false)
  {
    var area := Area6AO(OR, 5, Grass, [Slot6AO(74, 0, 10, 10)]);
    assert area.slots[..0] == [];
    assert MatchSlots(area, Blank.(species := 74, metLevel := 40), area.slots[..0], [EvoCriteria(74, 0, 40, 40)], WidenedWindow) == [];
  }
}

=== FILE: common.dfy ===
/** Small shared vocabulary: optional values, results for the error paths the
    source signals with exceptions, and the fixed-width integer ranges the
    source's storage types impose. */
module Common {

  /** An absent or present value. */
  datatype Option<+T> = None | Some(value: T) {
    function GetOr(default: T): T {
      match this
      case Some(v) => v
      case None => default
    }
  }

  /** Why an operation of the model failed where the source throws. */
  datatype Error =
    | IndexOutOfRange   // an array read past its end
    | BadArgument       // an ArgumentException

  /** Either a value or the exception the source would raise instead. */
  datatype Result<+T> = Ok(value: T) | Fail(error: Error)

  /** An unsigned 8-bit value (C# `byte`). */
  type Byte = x: int | 0 <= x < 0x100

  /** An unsigned 16-bit value (C# `ushort`). */
  type U16 = x: int | 0 <= x < 0x1_0000

  /** An unsigned 32-bit value (C# `uint`). */
  type U32 = x: int | 0 <= x < 0x1_0000_0000

  /** A signed 32-bit value (C# `int`). */
  type I32 = x: int | -0x8000_0000 <= x < 0x8000_0000

  /** Two to the power `k`. */
  function Pow2(k: nat): nat {
    if k == 0 then 1 else 2 * Pow2(k - 1)
  }

  function Min(a: int, b: int): int {
    if a <= b then a else b
  }

  function Max(a: int, b: int): int {
    if a >= b then a else b
  }

  /** The elements of `s` that satisfy `p`, in their order in `s`. */
  function Filter<T>(s: seq<T>, p: T -> bool): (r: seq<T>)
    ensures |r| <= |s|
    ensures forall i :: 0 <= i < |r| ==> p(r[i])
    decreases |s|
  {
    if |s| == 0 then []
    else
      var init := Filter(s[..|s| - 1], p);
      if p(s[|s| - 1]) then init + [s[|s| - 1]] else init
  }

  /** The filter keeps exactly the elements of `s` that pass it. */
  lemma {:induction false} FilterMembers<T>(s: seq<T>, p: T -> bool)
    ensures forall i :: 0 <= i < |Filter(s, p)| ==> Filter(s, p)[i] in s
    ensures forall i :: 0 <= i < |s| && p(s[i]) ==> s[i] in Filter(s, p)
    decreases |s|
  {
    if |s| > 0 {
      var init := s[..|s| - 1];
      FilterMembers(init, p);
      assert forall x :: x in init ==> x in s;
    }
  }

  /** A subsequence relation, read from the back: `a` keeps some of `b`'s
      elements, in `b`'s order. */
  ghost predicate Subsequence<T>(a: seq<T>, b: seq<T>)
    decreases |b|
  {
    if |a| == 0 then true
    else if |b| == 0 then false
    else (a[|a| - 1] == b[|b| - 1] && Subsequence(a[..|a| - 1], b[..|b| - 1]))
         || Subsequence(a, b[..|b| - 1])
  }

  /** Filtering keeps the survivors in their original order. */
  lemma {:induction false} FilterIsSubsequence<T>(s: seq<T>, p: T -> bool)
    ensures Subsequence(Filter(s, p), s)
    decreases |s|
  {
    if |s| > 0 {
      var init := s[..|s| - 1];
      FilterIsSubsequence(init, p);
      var r := Filter(s, p);
      if p(s[|s| - 1]) {
        assert r[..|r| - 1] == Filter(init, p);
      } else {
        assert r == Filter(init, p);
      }
    }
  }

  /** Two filters with disjoint predicates together take each occurrence of
      an element at most once. */
  lemma {:induction false} DisjointFiltersWithin<T>(s: seq<T>, p: T -> bool, q: T -> bool)
    requires forall i :: 0 <= i < |s| ==> !(p(s[i]) && q(s[i]))
    ensures multiset(Filter(s, p)) + multiset(Filter(s, q)) <= multiset(s)
    decreases |s|
  {
    if |s| > 0 {
      var init := s[..|s| - 1];
      var last := s[|s| - 1];
      assert s == init + [last];
      assert forall i :: 0 <= i < |init| ==> init[i] == s[i];
      DisjointFiltersWithin(init, p, q);
      assert multiset(s) == multiset(init) + multiset{last};
      assert !(p(last) && q(last));
      var fp, fq := Filter(s, p), Filter(s, q);
      assert multiset(fp) == multiset(Filter(init, p)) + (if p(last) then multiset{last} else multiset{});
      assert multiset(fq) == multiset(Filter(init, q)) + (if q(last) then multiset{last} else multiset{});
    }
  }

  /** Filtering with two predicates that agree on the sequence gives the same result. */
  lemma {:induction false} FilterCongruent<T>(s: seq<T>, p: T -> bool, q: T -> bool)
    requires forall i :: 0 <= i < |s| ==> p(s[i]) == q(s[i])
    ensures Filter(s, p) == Filter(s, q)
    decreases |s|
  {
    if |s| > 0 {
      FilterCongruent(s[..|s| - 1], p, q);
    }
  }

  /** Filtering twice is filtering once by the conjunction of the two tests. */
  lemma {:induction false} FilterTwice<T>(s: seq<T>, p: T -> bool, q: T -> bool, both: T -> bool)
    requires forall i :: 0 <= i < |s| ==> both(s[i]) == (p(s[i]) && q(s[i]))
    ensures Filter(Filter(s, p), q) == Filter(s, both)
    decreases |s|
  {
    if |s| > 0 {
      var init, last := s[..|s| - 1], s[|s| - 1];
      assert forall i :: 0 <= i < |init| ==> init[i] == s[i];
      FilterTwice(init, p, q, both);
      var once := Filter(s, p);
      if p(last) {
        assert once == Filter(init, p) + [last];
        assert once[..|once| - 1] == Filter(init, p);
      }
    }
  }

  /** A filter over a sequence whose passing elements form the two runs
      `s[i..j]` and `s[k..]`. */
  lemma {:induction false} FilterTwoRuns<T>(s: seq<T>, i: nat, j: nat, k: nat, p: T -> bool)
    requires i <= j <= k <= |s|
    requires forall n :: 0 <= n < i ==> !p(s[n])
    requires forall n :: i <= n < j ==> p(s[n])
    requires forall n :: j <= n < k ==> !p(s[n])
    requires forall n :: k <= n < |s| ==> p(s[n])
    ensures Filter(s, p) == s[i..j] + s[k..]
    decreases |s|
  {
    if |s| > 0 {
      var init, last := s[..|s| - 1], s[|s| - 1];
      var n := |init|;
      assert forall m :: 0 <= m < n ==> init[m] == s[m];
      if k <= n {
        FilterTwoRuns(init, i, j, k, p);
        assert s[k..] == init[k..] + [last];
        assert init[i..j] == s[i..j];
      } else if j <= n {
        FilterTwoRuns(init, i, j, n, p);
        assert init[i..j] == s[i..j];
      } else if i <= n {
        FilterTwoRuns(init, i, n, n, p);
        assert s[i..j] == init[i..n] + [last];
      } else {
        FilterTwoRuns(init, n, n, n, p);
      }
    }
  }
}

=== FILE: creatures.dfy ===
/** The read-only view of a creature record that the encounter core consults.

    Only the fields the matching predicates and level-window rules read are
    kept; the per-generation storage layout is not part of this model. */
module Creatures {
  import opened Common
  import opened Versions

  /** Which record class holds the creature: the two legacy formats are
      treated specially by the generation 1/2 origin rules. */
  datatype RecordKind =
    | PK1
    | PK2(caughtData: int)   // zero when no catch data was recorded
    | Later

  /** The six contest condition values of a generation 3+ record. */
  datatype ContestStats = ContestStats(cool: int, beauty: int, cute: int, smart: int, tough: int, sheen: int)

  datatype Creature = Creature(
    record: RecordKind,
    format: int,                  // format of the record as stored
    generation: int,              // generation the creature originated in
    species: U16,
    form: Byte,
    currentLevel: int,
    metLevel: int,
    metLocation: int,
    eggLocation: int,
    isEgg: bool,
    hasOriginalMetLocation: bool,
    version: GameVersion,
    language: int,
    tid: int,
    sid: int,
    otGender: int,
    gender: int,
    nature: int,
    pid: int,
    encryptionConstant: int,
    relearnMove1: int,
    abilityNumber: int,
    contest: Option<ContestStats>, // None for formats without contest stats
    vc1: bool,                    // transferred from a generation 1 virtual console game
    vc2: bool)                    // transferred from a generation 2 virtual console game

  /** A generation 6 record with every other field at its zero value; the
      scenario lemmas start from it and set the fields they need. */
  const Blank: Creature := Creature(
    Later, 6, 6, 0, 0, 1, 1, 0, 0, false, true, Any, English,
    0, 0, 0, 0, 0, 0, 0, 0, 1, None, false, false)

  /** Shiny policy of an encounter template. */
  datatype Shiny = Random | Never | Always | AlwaysStar | AlwaysSquare | FixedValue

  /** One step of a possible evolutionary history: species and form, and the
      lowest and highest level the creature could have had in that stage. */
  datatype EvoCriteria = EvoCriteria(species: int, form: int, minLevel: int, level: int)
}

=== FILE: encounter_origin.dfy ===
/** The origin-generation evolution chain of a creature (EncounterOrigin).

    An admissible level window [minLevel, maxLevel] is computed from the
    creature's met data, format and generation; the chain of possible
    pre-evolutions (supplied by the external evolution table) is then
    trimmed against that window when the original met data is gone. */
module EncounterOrigin {
  import opened Common
  import opened Versions
  import opened Creatures

  /** The external evolution table (EvolutionChain.GetValidPreEvolutions):
      given a species ceiling, a maximum and a minimum level, it lists the
      stages the creature could have occupied, most evolved first. */
  type PreEvolutions = (int, int, int) -> seq<EvoCriteria>

  /** The admissible level window of the origin generation. */
  datatype Window = Window(hasOriginMet: bool, maxLevel: int, minLevel: int)

  // ---------------------------------------------------------------------
  // Species that need a level-up in a later generation to exist.

  const Crobat: int := 169
  const Espeon: int := 196
  const Umbreon: int := 197
  const Blissey: int := 242

  /** Introduced in generation 2, reachable from a generation 1 specimen only by levelling up. */
  const FutureLevelUp2: set<int> := {Crobat, Espeon, Umbreon, Blissey}

  /** Introduced in generation 4, reachable from an older specimen only by levelling up:
      Ambipom, Weavile, Magnezone, Lickilicky, Tangrowth, Yanmega, Leafeon,
      Glaceon, Mamoswine, Gliscor, Probopass. */
  const FutureLevelUp4: set<int> := {424, 461, 462, 463, 465, 469, 470, 471, 473, 472, 476}

  const FormShift: nat := 2048   // 1 << 11

  /** Generation 6+ species (keyed by `species | form << 11`) with the number of
      levels a later-generation level-up costs: Sylveon, Alolan Marowak,
      Galarian Weezing, Galarian Mr. Mime (1 each) and Mr. Rime (2). The
      species numbers are below 2048, so each `|` is an addition
      (see FutureKeyIsSum). */
  const FutureLevelUp: map<int, int> := map[
    700 := 1,
    105 + 1 * FormShift := 1,
    110 + 1 * FormShift := 1,
    122 + 1 * FormShift := 1,
    866 := 2]

  /** Bitwise OR of two non-negative integers. */
  function BitOr(a: nat, b: nat): nat
    decreases a + b
  {
    if a == 0 then b
    else if b == 0 then a
    else BitOr(a / 2, b / 2) * 2 + (if a % 2 == 1 || b % 2 == 1 then 1 else 0)
  }

  /** The dictionary key `species | (form << 11)`. */
  function FutureKey(species: U16, form: Byte): nat {
    BitOr(species, form * FormShift)
  }

  /** OR-ing in bits above a value's own bits is addition. */
  lemma {:induction false} BitOrAboveIsSum(a: nat, b: nat, k: nat)
    requires a < Pow2(k)
    ensures BitOr(a, b * Pow2(k)) == a + b * Pow2(k)
    decreases k
  {
    if k == 0 || a == 0 || b == 0 {
    } else {
      var q := Pow2(k - 1);
      assert Pow2(k) == 2 * q;
      assert b * Pow2(k) == 2 * (b * q);
      assert (b * Pow2(k)) / 2 == b * q;
      assert (b * Pow2(k)) % 2 == 0;
      BitOrAboveIsSum(a / 2, b, k - 1);
    }
  }

  /** For every species number below 2048 the key is `species + form * 2048`. */
  lemma FutureKeyIsSum(species: U16, form: Byte)
    requires species < 2048
    ensures FutureKey(species, form) == species + form * FormShift
  {
    assert Pow2(11) == FormShift;
    BitOrAboveIsSum(species, form, 11);
  }

  // ---------------------------------------------------------------------
  // Level window.

  /** The highest level a transferred creature can have had in its origin
      generation: the met level, less the level-up a later-generation
      evolution needs. */
  function LevelOriginMaxTransfer(pkm: Creature, met: int, generation: int): (r: int)
    ensures met - 2 <= r <= met
    ensures r == met <==>
              FutureKey(pkm.species, pkm.form) !in FutureLevelUp
              && !(generation < 4 && pkm.species in FutureLevelUp4)
    ensures generation >= 4 && FutureKey(pkm.species, pkm.form) !in FutureLevelUp ==> r == met
    ensures FutureKey(pkm.species, pkm.form) in FutureLevelUp ==>
              r == met - FutureLevelUp[FutureKey(pkm.species, pkm.form)]
    ensures FutureKey(pkm.species, pkm.form) !in FutureLevelUp && generation < 4 && pkm.species in FutureLevelUp4 ==>
              r == met - 1
  {
    var key := FutureKey(pkm.species, pkm.form);
    if key in FutureLevelUp then met - FutureLevelUp[key]
    else if generation < 4 && pkm.species in FutureLevelUp4 then met - 1
    else met
  }

  /** The lowest level the creature can have had when first met. */
  function LevelOriginMin(pkm: Creature, hasMet: bool): (r: int)
    ensures r >= 1
    ensures pkm.format == 3 ==> r >= 2
    ensures pkm.format == 3 && pkm.isEgg ==> r == 5
    ensures !(pkm.format == 3 && pkm.isEgg) && (hasMet || pkm.format == 3) ==> r >= pkm.metLevel
    ensures r == 1 <==> pkm.format != 3 && (!hasMet || pkm.metLevel <= 1)
    ensures pkm.format == 3 && !pkm.isEgg ==> r == Max(2, pkm.metLevel)
    ensures pkm.format != 3 && hasMet ==> r == Max(1, pkm.metLevel)
    ensures pkm.format != 3 && !hasMet ==> r == 1
  {
    if pkm.format == 3 then
      (if pkm.isEgg then 5 else Max(2, pkm.metLevel))
    else if !hasMet then 1
    else Max(1, pkm.metLevel)
  }

  /** The highest level the creature can have had in its origin generation. */
  function LevelOriginMax(pkm: Creature, hasMet: bool): (r: int)
    ensures hasMet ==> r == pkm.currentLevel
    ensures !hasMet && pkm.generation >= 4 ==> r == pkm.metLevel
    ensures !hasMet ==> pkm.metLevel - 2 <= r <= pkm.metLevel
    ensures !hasMet && pkm.generation < 4 ==> r == LevelOriginMaxTransfer(pkm, pkm.metLevel, pkm.generation)
  {
    var met := pkm.metLevel;
    if hasMet then pkm.currentLevel
    else if pkm.generation >= 4 then met
    else LevelOriginMaxTransfer(pkm, met, pkm.generation)
  }

  /** The window for a creature of generation 3 or later. */
  function OriginWindow(pkm: Creature): (w: Window)
    ensures w.hasOriginMet == pkm.hasOriginalMetLocation
    ensures w.minLevel >= 1
    ensures w.hasOriginMet ==> w.maxLevel == pkm.currentLevel
    ensures !w.hasOriginMet ==> w.maxLevel <= pkm.metLevel
    ensures w.minLevel == LevelOriginMin(pkm, pkm.hasOriginalMetLocation)
    ensures w.maxLevel == LevelOriginMax(pkm, pkm.hasOriginalMetLocation)
  {
    var hasOriginMet := pkm.hasOriginalMetLocation;
    Window(hasOriginMet, LevelOriginMax(pkm, hasOriginMet), LevelOriginMin(pkm, hasOriginMet))
  }

  /** The window for a creature from generation 1 (`rby`) or generation 2. */
  function OriginWindow12(pkm: Creature, rby: bool): (w: Window)
    ensures !pkm.record.PK2? ==> !w.hasOriginMet && w.minLevel == 2
    ensures pkm.record.PK1? ==> w.maxLevel == pkm.currentLevel
    ensures pkm.record.PK2? ==> w.hasOriginMet == (pkm.record.caughtData != 0)
    ensures pkm.record.PK2? && !w.hasOriginMet ==> w.minLevel == 2
    ensures pkm.record.PK2? && w.hasOriginMet ==> w.minLevel == (if pkm.isEgg then 5 else pkm.metLevel)
    ensures pkm.record.PK2? ==>
              w.maxLevel == pkm.currentLevel - (if rby && pkm.species in FutureLevelUp2 then 1 else 0)
    ensures pkm.record.Later? && rby && pkm.species in FutureLevelUp2 ==> w.maxLevel == pkm.currentLevel - 1
    ensures pkm.record.Later? && !(rby && pkm.species in FutureLevelUp2) ==> w.maxLevel <= pkm.metLevel
    ensures pkm.record.Later? && !(rby && pkm.species in FutureLevelUp2) ==>
              w.maxLevel == LevelOriginMaxTransfer(pkm, pkm.metLevel, if rby then 1 else 2)
    ensures pkm.record.Later? ==> !w.hasOriginMet && w.minLevel == 2
  {
    match pkm.record
    case PK2(caught) =>
      var hasOriginMet := caught != 0;
      var maxLevel := if rby && pkm.species in FutureLevelUp2 then pkm.currentLevel - 1 else pkm.currentLevel;
      var minLevel := if !hasOriginMet then 2 else if pkm.isEgg then 5 else pkm.metLevel;
      Window(hasOriginMet, maxLevel, minLevel)
    case PK1 =>
      Window(false, pkm.currentLevel, 2)
    case Later =>
      if rby then
        Window(false,
               if pkm.species in FutureLevelUp2 then pkm.currentLevel - 1
               else LevelOriginMaxTransfer(pkm, pkm.metLevel, 1),
               2)
      else
        Window(false, LevelOriginMaxTransfer(pkm, pkm.metLevel, 2), 2)
  }

  // ---------------------------------------------------------------------
  // Chain trimming.

  predicate Feasible(e: EvoCriteria, maxLevel: int) {
    e.minLevel <= maxLevel
  }

  /** Lowers a node's level to the window maximum when it exceeds it. */
  function Clamp(e: EvoCriteria, maxLevel: int): (r: EvoCriteria)
    ensures r.species == e.species && r.form == e.form && r.minLevel == e.minLevel
    ensures r.level == Min(e.level, maxLevel)
  {
    if e.level > maxLevel then e.(level := maxLevel) else e
  }

  /** Some node of `s` reaches the window maximum. */
  predicate Reaches(s: seq<EvoCriteria>, maxLevel: int) {
    exists k :: 0 <= k < |s| && s[k].level >= maxLevel
  }

  /** The trimming loop, read as a function: `pending` holds the nodes not yet
      visited (the loop walks from the end), `kept` those already visited
      and retained. Removing an infeasible node keeps the chain only if a
      node still reaches the maximum; otherwise the whole chain is dropped. */
  function TrimFrom(pending: seq<EvoCriteria>, kept: seq<EvoCriteria>, maxLevel: int): seq<EvoCriteria>
    decreases |pending|
  {
    if |pending| == 0 then kept
    else
      var i := |pending| - 1;
      var evo := pending[i];
      if !Feasible(evo, maxLevel) then
        if Reaches(pending[..i] + kept, maxLevel) then TrimFrom(pending[..i], kept, maxLevel)
        else []
      else TrimFrom(pending[..i], [Clamp(evo, maxLevel)] + kept, maxLevel)
  }

  predicate HasInfeasible(c: seq<EvoCriteria>, maxLevel: int) {
    exists k :: 0 <= k < |c| && c[k].minLevel > maxLevel
  }

  /** Some node both fits the window and reaches its maximum. */
  predicate HasFeasibleReaching(c: seq<EvoCriteria>, maxLevel: int) {
    exists k :: 0 <= k < |c| && c[k].minLevel <= maxLevel && c[k].level >= maxLevel
  }

  /** The feasible nodes of `c`, in order, each clamped to the maximum. */
  function FeasibleClamped(c: seq<EvoCriteria>, maxLevel: int): (r: seq<EvoCriteria>)
    ensures |r| <= |c|
    ensures forall k :: 0 <= k < |r| ==> r[k].minLevel <= maxLevel && r[k].level <= maxLevel
    decreases |c|
  {
    if |c| == 0 then []
    else
      var last := c[|c| - 1];
      FeasibleClamped(c[..|c| - 1], maxLevel) + (if Feasible(last, maxLevel) then [Clamp(last, maxLevel)] else [])
  }

  /** `r` is obtained from `c` by deleting nodes and clamping the rest. */
  ghost predicate IsTrimmedSubsequence(r: seq<EvoCriteria>, c: seq<EvoCriteria>, maxLevel: int)
    decreases |c|
  {
    if |r| == 0 then true
    else if |c| == 0 then false
    else (r[|r| - 1] == Clamp(c[|c| - 1], maxLevel)
          && IsTrimmedSubsequence(r[..|r| - 1], c[..|c| - 1], maxLevel))
         || IsTrimmedSubsequence(r, c[..|c| - 1], maxLevel)
  }

  lemma {:induction false} FeasibleClampedIsTrimmedSubsequence(c: seq<EvoCriteria>, maxLevel: int)
    ensures IsTrimmedSubsequence(FeasibleClamped(c, maxLevel), c, maxLevel)
    decreases |c|
  {
    if |c| > 0 {
      var init := c[..|c| - 1];
      FeasibleClampedIsTrimmedSubsequence(init, maxLevel);
      var r := FeasibleClamped(c, maxLevel);
      if Feasible(c[|c| - 1], maxLevel) {
        assert r == FeasibleClamped(init, maxLevel) + [Clamp(c[|c| - 1], maxLevel)];
        assert r[..|r| - 1] == FeasibleClamped(init, maxLevel);
        assert r[|r| - 1] == Clamp(c[|c| - 1], maxLevel);
        assert c[..|c| - 1] == init;
      } else {
        assert r == FeasibleClamped(init, maxLevel);
        assert c[..|c| - 1] == init;
      }
    }
  }

  lemma HasInfeasibleSnoc(init: seq<EvoCriteria>, evo: EvoCriteria, maxLevel: int)
    ensures HasInfeasible(init + [evo], maxLevel) <==> HasInfeasible(init, maxLevel) || !Feasible(evo, maxLevel)
  {
    var s := init + [evo];
    if HasInfeasible(init, maxLevel) {
      var k :| 0 <= k < |init| && init[k].minLevel > maxLevel;
      assert s[k] == init[k];
    }
    if !Feasible(evo, maxLevel) {
      assert s[|init|] == evo;
    }
  }

  lemma HasFeasibleReachingSnoc(init: seq<EvoCriteria>, evo: EvoCriteria, maxLevel: int)
    ensures HasFeasibleReaching(init + [evo], maxLevel)
            <==> HasFeasibleReaching(init, maxLevel) || (Feasible(evo, maxLevel) && evo.level >= maxLevel)
  {
    var s := init + [evo];
    if HasFeasibleReaching(init, maxLevel) {
      var k :| 0 <= k < |init| && init[k].minLevel <= maxLevel && init[k].level >= maxLevel;
      assert s[k] == init[k];
    }
    if Feasible(evo, maxLevel) && evo.level >= maxLevel {
      assert s[|init|] == evo;
    }
  }

  lemma ReachesAppend(a: seq<EvoCriteria>, b: seq<EvoCriteria>, maxLevel: int)
    ensures Reaches(a + b, maxLevel) <==> Reaches(a, maxLevel) || Reaches(b, maxLevel)
  {
    var s := a + b;
    if Reaches(a, maxLevel) {
      var k :| 0 <= k < |a| && a[k].level >= maxLevel;
      assert s[k] == a[k];
    }
    if Reaches(b, maxLevel) {
      var k :| 0 <= k < |b| && b[k].level >= maxLevel;
      assert s[|a| + k] == b[k];
    }
  }

  /** A chain with only fitting nodes, none reaching the maximum, reaches nothing. */
  lemma FeasibleNotReaching(c: seq<EvoCriteria>, maxLevel: int)
    requires !HasInfeasible(c, maxLevel) && !HasFeasibleReaching(c, maxLevel)
    ensures !Reaches(c, maxLevel)
  {
    forall k | 0 <= k < |c|
      ensures c[k].level < maxLevel
    {
      assert c[k].minLevel <= maxLevel;
    }
  }

  /** The loop's outcome in declarative terms, for any retained suffix. */
  lemma {:induction false} TrimFromCharacterization(pending: seq<EvoCriteria>, kept: seq<EvoCriteria>, maxLevel: int)
    requires forall k :: 0 <= k < |kept| ==> kept[k].minLevel <= maxLevel && kept[k].level <= maxLevel
    ensures TrimFrom(pending, kept, maxLevel)
            == if HasInfeasible(pending, maxLevel) && !HasFeasibleReaching(pending, maxLevel) && !Reaches(kept, maxLevel)
               then []
               else FeasibleClamped(pending, maxLevel) + kept
    decreases |pending|
  {
    if |pending| == 0 {
      assert FeasibleClamped(pending, maxLevel) + kept == kept;
    } else {
      var i := |pending| - 1;
      var init := pending[..i];
      var evo := pending[i];
      assert pending == init + [evo];
      HasInfeasibleSnoc(init, evo, maxLevel);
      HasFeasibleReachingSnoc(init, evo, maxLevel);
      if Feasible(evo, maxLevel) {
        var kept' := [Clamp(evo, maxLevel)] + kept;
        TrimFromCharacterization(init, kept', maxLevel);
        ReachesAppend([Clamp(evo, maxLevel)], kept, maxLevel);
        assert Reaches([Clamp(evo, maxLevel)], maxLevel) <==> evo.level >= maxLevel by {
          assert [Clamp(evo, maxLevel)][0] == Clamp(evo, maxLevel);
        }
        assert FeasibleClamped(pending, maxLevel) == FeasibleClamped(init, maxLevel) + [Clamp(evo, maxLevel)];
        assert FeasibleClamped(pending, maxLevel) + kept == FeasibleClamped(init, maxLevel) + kept';
      } else {
        assert FeasibleClamped(pending, maxLevel) == FeasibleClamped(init, maxLevel);
        ReachesAppend(init, kept, maxLevel);
        if Reaches(init + kept, maxLevel) {
          TrimFromCharacterization(init, kept, maxLevel);
          if !HasInfeasible(init, maxLevel) && !HasFeasibleReaching(init, maxLevel) {
            FeasibleNotReaching(init, maxLevel);
          }
        }
      }
    }
  }

  /** The trimmed chain. It is empty exactly when some node lies above the
      window and no node that fits the window reaches its maximum;
      otherwise it is every fitting node, in order, clamped to the maximum. */
  function Trimmed(chain: seq<EvoCriteria>, maxLevel: int): (r: seq<EvoCriteria>)
    ensures r == if HasInfeasible(chain, maxLevel) && !HasFeasibleReaching(chain, maxLevel) then []
                 else FeasibleClamped(chain, maxLevel)
    ensures forall k :: 0 <= k < |r| ==> r[k].minLevel <= maxLevel && r[k].level <= maxLevel
    ensures IsTrimmedSubsequence(r, chain, maxLevel)
  {
    TrimFromCharacterization(chain, [], maxLevel);
    FeasibleClampedIsTrimmedSubsequence(chain, maxLevel);
    assert FeasibleClamped(chain, maxLevel) + [] == FeasibleClamped(chain, maxLevel);
    TrimFrom(chain, [], maxLevel)
  }

  /** The in-place trimming loop over the chain, walking from its end. */
  method TrimOriginChain(chain: seq<EvoCriteria>, maxLevel: int) returns (r: seq<EvoCriteria>)
    ensures r == Trimmed(chain, maxLevel)
    ensures forall k :: 0 <= k < |r| ==> r[k].minLevel <= maxLevel && r[k].level <= maxLevel
  {
    var c := chain;
    var i := |c|;
    assert chain[..i] == chain && c[i..] == [];
    while i > 0
      invariant 0 <= i <= |c|
      invariant c[..i] == chain[..i]
      invariant TrimFrom(chain[..i], c[i..], maxLevel) == TrimFrom(chain, [], maxLevel)
    {
      i := i - 1;
      var evo := c[i];
      assert chain[..i + 1][..i] == chain[..i];
      if evo.minLevel > maxLevel {
        ghost var before := c;
        c := c[..i] + c[i + 1..];
        assert c[..i] == chain[..i];
        assert c[i..] == before[i + 1..];
        if Reaches(c, maxLevel) {
          continue;
        }
        r := [];
        return;
      }
      if evo.level > maxLevel {
        c := c[i := evo.(level := maxLevel)];
      }
      assert c[i..] == [Clamp(evo, maxLevel)] + c[i + 1..];
    }
    assert c[0..] == c;
    r := c;
  }

  /** The chain for a computed window (the private GetOriginChain): empty when
      the window is empty; the external chain when the met data is original;
      otherwise the chain up to the current level, trimmed to the window. */
  function ChainForWindow(pkm: Creature, maxSpecies: int, w: Window, preEvos: PreEvolutions): (r: seq<EvoCriteria>)
    ensures w.maxLevel < w.minLevel ==> r == []
    ensures !w.hasOriginMet ==> forall k :: 0 <= k < |r| ==> r[k].minLevel <= w.maxLevel && r[k].level <= w.maxLevel
    ensures !w.hasOriginMet && w.minLevel <= w.maxLevel ==>
              IsTrimmedSubsequence(r, preEvos(maxSpecies, pkm.currentLevel, w.minLevel), w.maxLevel)
    ensures w.minLevel <= w.maxLevel && w.hasOriginMet ==> r == preEvos(maxSpecies, w.maxLevel, w.minLevel)
    ensures w.minLevel <= w.maxLevel && !w.hasOriginMet ==>
              var c := preEvos(maxSpecies, pkm.currentLevel, w.minLevel);
              r == (if HasInfeasible(c, w.maxLevel) && !HasFeasibleReaching(c, w.maxLevel) then []
                    else FeasibleClamped(c, w.maxLevel))
  {
    if w.maxLevel < w.minLevel then []
    else if w.hasOriginMet then preEvos(maxSpecies, w.maxLevel, w.minLevel)
    else Trimmed(preEvos(maxSpecies, pkm.currentLevel, w.minLevel), w.maxLevel)
  }

  /** Possible origin species-form-levels of a creature from generation 3 on. */
  function GetOriginChain(pkm: Creature, preEvos: PreEvolutions): (r: seq<EvoCriteria>)
    ensures OriginWindow(pkm).maxLevel < OriginWindow(pkm).minLevel ==> r == []
    ensures pkm.hasOriginalMetLocation && pkm.currentLevel < LevelOriginMin(pkm, true) ==> r == []
    ensures !pkm.hasOriginalMetLocation ==> forall k :: 0 <= k < |r| ==> r[k].level <= pkm.metLevel
    ensures var w := OriginWindow(pkm);
            w.minLevel <= w.maxLevel && w.hasOriginMet ==> r == preEvos(-1, w.maxLevel, w.minLevel)
    ensures var w := OriginWindow(pkm);
            w.minLevel <= w.maxLevel && !w.hasOriginMet ==>
              var c := preEvos(-1, pkm.currentLevel, w.minLevel);
              r == (if HasInfeasible(c, w.maxLevel) && !HasFeasibleReaching(c, w.maxLevel) then []
                    else FeasibleClamped(c, w.maxLevel))
  {
    ChainForWindow(pkm, -1, OriginWindow(pkm), preEvos)
  }

  /** Possible origin species-form-levels of a creature from generation 1
      (`gameSource == RBY`) or generation 2. */
  function GetOriginChain12(pkm: Creature, gameSource: GameVersion, preEvos: PreEvolutions): (r: seq<EvoCriteria>)
    ensures var w := OriginWindow12(pkm, gameSource == RBY);
            w.maxLevel < w.minLevel ==> r == []
    ensures pkm.record.PK1? ==> forall k :: 0 <= k < |r| ==> r[k].level <= pkm.currentLevel
    ensures var w := OriginWindow12(pkm, gameSource == RBY);
            var maxSpecies := if gameSource == RBY then MaxSpeciesId1 else MaxSpeciesId2;
            w.minLevel <= w.maxLevel && w.hasOriginMet ==> r == preEvos(maxSpecies, w.maxLevel, w.minLevel)
    ensures var w := OriginWindow12(pkm, gameSource == RBY);
            var maxSpecies := if gameSource == RBY then MaxSpeciesId1 else MaxSpeciesId2;
            w.minLevel <= w.maxLevel && !w.hasOriginMet ==>
              var c := preEvos(maxSpecies, pkm.currentLevel, w.minLevel);
              r == (if HasInfeasible(c, w.maxLevel) && !HasFeasibleReaching(c, w.maxLevel) then []
                    else FeasibleClamped(c, w.maxLevel))
  {
    var rby := gameSource == RBY;
    var maxSpecies := if rby then MaxSpeciesId1 else MaxSpeciesId2;
    ChainForWindow(pkm, maxSpecies, OriginWindow12(pkm, rby), preEvos)
  }
}

=== FILE: encounters_7b.dfy ===
/** Let's Go Pikachu / Eevee data fix-ups (Encounters7b): rare spawns that
    the packed wild tables lack are appended to the areas at the locations
    where they appear, and the in-game trade templates of those games. */
module Encounters7b {
  import opened Common
  import opened Versions
  import opened Creatures
  import opened Trades

  /** A wild slot of these games: species and level range. */
  datatype Slot7b = Slot7b(species: int, levelMin: int, levelMax: int)

  datatype Area7b = Area7b(location: int, slots: seq<Slot7b>)

  /** A species that spawns rarely, and the locations (one byte each) where
      it does. Only membership in the location list is ever read, so the
      list is kept as a set. */
  datatype RareSpawn = RareSpawn(species: int, locations: set<Byte>)

  /** The locations where flying rare spawns appear. */
  const Sky: set<Byte> :=
    {3, 4, 5, 6, 9, 10, 11, 12, 13, 14, 15, 16, 17, 18, 19, 20, 21, 22, 23, 24, 25, 26, 27}

  /** The rare spawns in declaration order: ground, water, then flying. */
  const Rare: seq<RareSpawn> := [
    RareSpawn(1, {39}),
    RareSpawn(4, {5, 6, 41}),
    RareSpawn(7, {26, 27, 44}),
    RareSpawn(106, {45}),
    RareSpawn(107, {45}),
    RareSpawn(113, {7, 8, 10, 11, 12, 13, 14, 15, 16, 17, 18, 19, 20, 23, 25, 40, 42, 43, 45, 47, 51}),
    RareSpawn(137, {9}),
    RareSpawn(143, {46}),
    RareSpawn(131, {21, 22}),
    RareSpawn(6, Sky),
    RareSpawn(144, Sky),
    RareSpawn(145, Sky),
    RareSpawn(146, Sky),
    RareSpawn(149, Sky)]

  /** Whether a rare spawn lists the location, compared as the byte `(byte)location`. */
  predicate Lists(z: RareSpawn, location: int) {
    location % 256 in z.locations
  }

  /** The species of the rare spawns listing the location, in declaration order. */
  function RareSpeciesAt(location: int): (r: seq<int>)
    ensures var hits := Filter(Rare, z => Lists(z, location));
            |r| == |hits| && forall i :: 0 <= i < |r| ==> r[i] == hits[i].species
  {
    var hits := Filter(Rare, z => Lists(z, location));
    seq(|hits|, i requires 0 <= i < |hits| => hits[i].species)
  }

  /** Flying rare spawns: Charizard and the birds and Dragonite from 144 on. */
  predicate IsFlying(species: int) {
    species == 6 || species >= 144
  }

  /** The slot appended for a rare species: flying species span levels 3 to
      56, the others copy the level range of the area's first slot. */
  function ExtraSlot(species: int, first: Slot7b): (s: Slot7b)
    ensures s.species == species
    ensures IsFlying(species) ==> s.levelMin == 3 && s.levelMax == 56
    ensures !IsFlying(species) ==> s.levelMin == first.levelMin && s.levelMax == first.levelMax
  {
    if IsFlying(species) then Slot7b(species, 3, 56)
    else Slot7b(species, first.levelMin, first.levelMax)
  }

  /** One area of ManuallyAddRareSpawns. An area no rare spawn lists is left
      as it is; otherwise one slot per listing rare spawn is appended after
      the existing ones. Reading the first slot of an empty area fails. */
  function AddRareSpawns(area: Area7b): (r: Result<Area7b>)
    ensures RareSpeciesAt(area.location) == [] ==> r == Ok(area)
    ensures r.Fail? <==> RareSpeciesAt(area.location) != [] && |area.slots| == 0
    ensures r.Ok? ==> r.value.location == area.location
    ensures r.Ok? ==> |r.value.slots| == |area.slots| + |RareSpeciesAt(area.location)|
    ensures r.Ok? ==> r.value.slots[..|area.slots|] == area.slots
    ensures r.Ok? ==> forall i :: |area.slots| <= i < |r.value.slots| ==>
                        r.value.slots[i] == ExtraSlot(RareSpeciesAt(area.location)[i - |area.slots|], area.slots[0])
  {
    var species := RareSpeciesAt(area.location);
    if |species| == 0 then Ok(area)
    else if |area.slots| == 0 then Fail(IndexOutOfRange)
    else
      var first := area.slots[0];
      Ok(area.(slots := area.slots + seq(|species|, i requires 0 <= i < |species| => ExtraSlot(species[i], first))))
  }

  /** ManuallyAddRareSpawns over a whole table: every area is augmented in
      turn; one failing area fails the whole table. */
  function ManuallyAddRareSpawns(areas: seq<Area7b>): (r: Result<seq<Area7b>>)
    ensures r.Ok? <==> forall i :: 0 <= i < |areas| ==> AddRareSpawns(areas[i]).Ok?
    ensures r.Ok? ==> |r.value| == |areas|
    ensures r.Ok? ==> forall i :: 0 <= i < |areas| ==> AddRareSpawns(areas[i]) == Ok(r.value[i])
    decreases |areas|
  {
    if |areas| == 0 then Ok([])
    else
      var init := ManuallyAddRareSpawns(areas[..|areas| - 1]);
      var last := AddRareSpawns(areas[|areas| - 1]);
      if init.Fail? then init
      else if last.Fail? then Fail(last.error)
      else Ok(init.value + [last.value])
  }

  /** The appended species follow the order of the rare-spawn declarations. */
  lemma {:induction false} RareSpeciesFollowDeclarations(location: int)
    ensures Subsequence(Filter(Rare, z => Lists(z, location)), Rare)
  {
    FilterIsSubsequence(Rare, z => Lists(z, location));
  }

  /** Location 5 lists Charmander and every flying rare spawn, in that order. */
  lemma RareSpeciesAtLocation5()
    ensures RareSpeciesAt(5) == [4, 6, 144, 145, 146, 149]
  {
    var p := (z: RareSpawn) => Lists(z, 5);
    assert forall i :: 0 <= i < 1 ==> !p(Rare[i]);
    assert forall i :: 1 <= i < 2 ==> p(Rare[i]);
    assert forall i :: 2 <= i < 9 ==> !p(Rare[i]);
    assert forall i :: 9 <= i < 14 ==> p(Rare[i]);
    FilterTwoRuns(Rare, 1, 2, 9, p);
    FilterCongruent(Rare, z => Lists(z, 5), p);
    var r := RareSpeciesAt(5);
    var hits := Rare[1..2] + Rare[9..];
    assert |r| == 6;
    assert forall i :: 0 <= i < 6 ==> r[i] == hits[i].species;
  }

  /** The location byte wraps: location 261 reads as location 5. */
  lemma LocationComparedAsByte(location: int)
    ensures RareSpeciesAt(location) == RareSpeciesAt(location % 256)
  {
    FilterCongruent(Rare, z => Lists(z, location), z => Lists(z, location % 256));
  }

  // ---------------------------------------------------------------------
  // In-game trades.

  /** SetVersion: a template without its own version takes the table's. */
  function SetVersion(t: EncounterTrade, game: GameVersion): (r: EncounterTrade)
    ensures t.version == Any ==> r.version == game
    ensures t.version != Any ==> r.version == t.version
    ensures r == t.(version := r.version)
  {
    if t.version == Any then t.(version := game) else t
  }

  /** One Let's Go trade: alternate form, OT names from a localized table,
      a split trainer ID, random shininess and no nickname. */
  function TradeGG(species: int, level: int, names: seq<string>, tid7: I32, otGender: int,
                   ivs: seq<int>, version: GameVersion): (t: EncounterTrade)
    ensures t.generation == 7 && t.species == species && t.level == level
    ensures t.shiny == Random && !t.isNicknamed
    ensures t.tid + 0x1_0000 * t.sid == tid7
    ensures t.version == (if version == Any then GG else version)
    ensures t.form == 1 && t.trainerNames == names && t.otGender == otGender && t.ivs == ivs
  {
    var base := NewTrade(7, species, level).(form := 1, trainerNames := names, otGender := otGender,
                                            shiny := Random, ivs := ivs, isNicknamed := false,
                                            version := version);
    SetVersion(WithTID7(base, tid7), GG)
  }

  /** One row of the Let's Go trade list as the in-game offers read:
      species, level, which of the eight OT tables, the combined trainer ID,
      the OT gender, the fixed IVs (-1 for random) and the game that offers
      it. */
  datatype GGOffer = GGOffer(species: int, level: int, table: nat, tid7: int, otGender: int,
                             ivs: seq<int>, version: GameVersion)

  const GGOffers: seq<GGOffer> := [
    GGOffer(19, 12, 0, 121106, 1, [31, 31, -1, -1, -1, -1], GG),   // Rattata, Cerulean City
    GGOffer(27, 27, 1, 703019, 0, [-1, 31, 31, -1, -1, -1], GP),   // Sandshrew, Celadon City
    GGOffer(37, 27, 1, 703019, 0, [-1, -1, -1, 31, 31, -1], GE),   // Vulpix, Celadon City
    GGOffer(50, 25, 2, 520159, 1, [-1, 31, -1, 31, -1, -1], GG),   // Diglett, Lavender Town
    GGOffer(52, 44, 3, 219, 0, [31, -1, -1, 31, -1, -1], GE),      // Meowth, Cinnabar Island
    GGOffer(88, 44, 3, 219, 0, [31, 31, -1, -1, -1, -1], GP),      // Grimer, Cinnabar Island
    GGOffer(26, 30, 4, 940711, 1, [-1, -1, -1, 31, 31, -1], GG),   // Raichu, Saffron City
    GGOffer(105, 38, 5, 102595, 0, [-1, 31, 31, -1, -1, -1], GG),  // Marowak, Fuchsia City
    GGOffer(103, 46, 6, 60310, 0, [-1, 31, -1, -1, 31, -1], GG),   // Exeggutor, Indigo Plateau
    GGOffer(74, 16, 7, 551873, 0, [31, 31, -1, -1, -1, -1], GG)    // Geodude, Vermilion City
  ]

  /** A trade template makes offer `o`, with `names` as its OT table: same
      species, level, OT gender, IVs and game, the alternate form, and a
      TID/SID pair that recombines to the offer's trainer ID. */
  predicate TradesAs(t: EncounterTrade, o: GGOffer, names: seq<string>) {
    && t.species == o.species && t.level == o.level && t.form == 1
    && t.trainerNames == names && t.tid + 0x1_0000 * t.sid == o.tid7
    && t.otGender == o.otGender && t.ivs == o.ivs
    && t.version == o.version
  }

  /** TradeGift_GG; `names` stands for the eight localized OT tables T1..T8. */
  function TradeGiftGG(names: seq<seq<string>>): (r: seq<EncounterTrade>)
    requires |names| == 8
    ensures |r| == 10
  {
    var rattata := TradeGG(19, 12, names[0], 121106, 1, [31, 31, -1, -1, -1, -1], Any);
    var sandshrew := TradeGG(27, 27, names[1], 703019, 0, [-1, 31, 31, -1, -1, -1], GP);
    var vulpix := TradeGG(37, 27, names[1], 703019, 0, [-1, -1, -1, 31, 31, -1], GE);
    var diglett := TradeGG(50, 25, names[2], 520159, 1, [-1, 31, -1, 31, -1, -1], Any);
    var meowth := TradeGG(52, 44, names[3], 219, 0, [31, -1, -1, 31, -1, -1], GE);
    var grimer := TradeGG(88, 44, names[3], 219, 0, [31, 31, -1, -1, -1, -1], GP);
    var raichu := TradeGG(26, 30, names[4], 940711, 1, [-1, -1, -1, 31, 31, -1], Any);
    var marowak := TradeGG(105, 38, names[5], 102595, 0, [-1, 31, 31, -1, -1, -1], Any);
    var exeggutor := TradeGG(103, 46, names[6], 60310, 0, [-1, 31, -1, -1, 31, -1], Any);
    var geodude := TradeGG(74, 16, names[7], 551873, 0, [31, 31, -1, -1, -1, -1], Any);
    [rattata, sandshrew, vulpix, diglett, meowth, grimer, raichu, marowak, exeggutor, geodude]
  }

  /** Each Let's Go trade makes the offer of its row in the offer list:
      species, level, alternate form, OT table, trainer ID, OT gender, IVs
      and game. The offer list is a second transcription of the same data,
      so this checks the two transcriptions against each other rather than
      any property of the trades. */
  lemma TradeGiftGGOffers(names: seq<seq<string>>)
    requires |names| == 8
    ensures |TradeGiftGG(names)| == |GGOffers|
    ensures forall i :: 0 <= i < |GGOffers| ==>
              TradesAs(TradeGiftGG(names)[i], GGOffers[i], names[GGOffers[i].table])
  {
    var r := TradeGiftGG(names);
    forall i | 0 <= i < |GGOffers|
      ensures TradesAs(r[i], GGOffers[i], names[GGOffers[i].table])
    {
    }
  }

  /** Every Let's Go trade has random shininess, carries no nickname, and
      belongs to one of the two games. */
  lemma TradeGiftGGInvariants(names: seq<seq<string>>)
    requires |names| == 8
    ensures forall i :: 0 <= i < |TradeGiftGG(names)| ==>
              var t := TradeGiftGG(names)[i];
              t.shiny == Random && !t.isNicknamed && !HasNickname(t)
              && t.version in {GP, GE, GG} && t.generation == 7
  {
    var r := TradeGiftGG(names);
    forall i | 0 <= i < |r|
      ensures r[i].shiny == Random && !r[i].isNicknamed && r[i].version in {GP, GE, GG} && r[i].generation == 7
    {
    }
  }
}

=== FILE: slot_types.dfy ===
/** Wild encounter methods (SlotType) and the ball a wild method requires.

    The stored value is one byte: a base method in its low four bits and an
    optional Swarm modifier in bit 7. The model keeps the raw byte, as the
    decoders read it, and also gives the split view (base method plus
    modifier flag) with the lemmas that connect the two. */
module SlotTypes {
  import opened Common

  type SlotType = Byte

  const AnyType: SlotType := 0
  const Grass: SlotType := 1
  const Surf: SlotType := 2
  const Old_Rod: SlotType := 3
  const Good_Rod: SlotType := 4
  const Super_Rod: SlotType := 5
  const Rock_Smash: SlotType := 6
  const Headbutt: SlotType := 7
  const HoneyTree: SlotType := 8
  const BugContest: SlotType := 9
  const HiddenGrotto: SlotType := 10
  const GoPark: SlotType := 11
  const FriendSafari: SlotType := 12
  const Horde: SlotType := 13
  const SOS: SlotType := 15
  /** Only ever combined with a base method. */
  const Swarm: SlotType := 0x80

  /** The base methods, as a closed enumeration. */
  datatype Method =
    | MAny | MGrass | MSurf | MOldRod | MGoodRod | MSuperRod | MRockSmash | MHeadbutt
    | MHoneyTree | MBugContest | MHiddenGrotto | MGoPark | MFriendSafari | MHorde | MSOS

  function Code(m: Method): (r: SlotType)
    ensures r < 16
  {
    match m
    case MAny => AnyType
    case MGrass => Grass
    case MSurf => Surf
    case MOldRod => Old_Rod
    case MGoodRod => Good_Rod
    case MSuperRod => Super_Rod
    case MRockSmash => Rock_Smash
    case MHeadbutt => Headbutt
    case MHoneyTree => HoneyTree
    case MBugContest => BugContest
    case MHiddenGrotto => HiddenGrotto
    case MGoPark => GoPark
    case MFriendSafari => FriendSafari
    case MHorde => Horde
    case MSOS => SOS
  }

  /** The stored byte for a base method with or without the Swarm modifier. */
  function Compose(m: Method, swarm: bool): SlotType {
    Code(m) + (if swarm then Swarm else 0)
  }

  /** The base method and the modifier never share a bit: both can be read
      back from the composed byte. */
  lemma ComposeSeparates(m: Method, swarm: bool)
    ensures Compose(m, swarm) % 16 == Code(m)
    ensures Compose(m, swarm) >= Swarm <==> swarm
  {
  }

  lemma CodeInjective(m: Method, n: Method)
    ensures Code(m) == Code(n) ==> m == n
  {
  }

  /** Caught with a fishing rod; the Swarm bit and any other high bit are
      masked away (`t & 0xF`) before comparing. */
  function IsFishingRodType(t: SlotType): (r: bool)
    ensures r <==> Old_Rod <= t % 16 <= Super_Rod
    ensures r ==> t != Grass && t != Surf && t != BugContest
  {
    var b := t % 16;
    b == Old_Rod || b == Good_Rod || b == Super_Rod
  }

  /** Reachable with Sweet Scent; compared without masking. */
  function IsSweetScentType(t: SlotType): (r: bool)
    ensures r ==> t < Swarm && t % 16 == t
    ensures r ==> !(Old_Rod <= t % 16 <= Super_Rod)
    ensures r <==> t in {Grass, Surf, BugContest}
  {
    t == Grass || t == Surf || t == BugContest
  }

  /** A rod method stays a rod method under the Swarm modifier. */
  lemma FishingRodIgnoresSwarm(m: Method, swarm: bool)
    ensures IsFishingRodType(Compose(m, swarm)) <==> m in {MOldRod, MGoodRod, MSuperRod}
  {
    ComposeSeparates(m, swarm);
  }

  /** Sweet Scent admits exactly three unmodified methods; any Swarm value is refused. */
  lemma SweetScentRefusesSwarm(m: Method, swarm: bool)
    ensures IsSweetScentType(Compose(m, swarm)) <==> !swarm && m in {MGrass, MSurf, MBugContest}
  {
  }

  datatype Ball = NoBall | Poke | Safari | Sport

  /** The ball a wild encounter of method `t` in generation `gen` at location
      `loc` must have been caught with. The two safari-zone tables are
      external lookups (Locations.IsSafariZoneLocation3/4). */
  function GetRequiredBallValueWild(t: SlotType, gen: int, loc: int,
                                    isSafariZone3: int -> bool, isSafariZone4: int -> bool): (r: Ball)
    ensures r == Safari <==> (gen == 3 && isSafariZone3(loc)) || (gen == 4 && isSafariZone4(loc))
    ensures r == Sport <==> gen == 4 && !isSafariZone4(loc) && t == BugContest
    ensures r == Poke <==> gen == 7 && loc == 30016
    ensures r == NoBall <==>
              (!(gen == 3 && isSafariZone3(loc))
               && !(gen == 4 && (isSafariZone4(loc) || t == BugContest))
               && !(gen == 7 && loc == 30016))
  {
    if gen == 3 && isSafariZone3(loc) then Safari
    else if gen == 4 && isSafariZone4(loc) then Safari
    else if gen == 4 && t == BugContest then Sport
    else if gen == 7 && loc == 30016 then Poke   // Poke Pelago
    else NoBall
  }
}

=== FILE: static_5n.dfy ===
/** The fixed-PID static encounters of Black 2 / White 2 handed over by N
    (EncounterStatic5N): a PID gate in front of the static match test, and
    the deterministic part of building such a creature. */
module Static5N {
  import opened Common
  import opened Creatures

  /** The template fields this variant reads: its fixed PID, the species,
      the nature it always has, and the ability number (1, 2 or 4). */
  datatype Static5N = Static5N(pid: U32, species: int, nature: int, ability: int, shiny: Shiny)

  /** The N trades always carry the sparkle marker. */
  const NSparkle: bool := true

  /** A template built from its PID: the shiny policy defaults to
      FixedValue, since the PID alone decides shininess. */
  function NewStatic5N(pid: U32, species: int, nature: int, ability: int): (s: Static5N)
    ensures s.pid == pid && s.species == species && s.nature == nature && s.ability == ability
    ensures s.shiny == FixedValue
  {
    Static5N(pid, species, nature, ability, FixedValue)
  }

  /** IsMatch: a record whose PID differs from the template's is rejected
      before the generation 5 static test (`baseIsMatch`, external) runs. */
  function IsMatch(s: Static5N, baseIsMatch: (Creature, EvoCriteria) -> bool,
                   pkm: Creature, evo: EvoCriteria): (r: bool)
    ensures s.pid != pkm.pid ==> !r
    ensures s.pid == pkm.pid ==> r == baseIsMatch(pkm, evo)
  {
    if s.pid != pkm.pid then false else baseIsMatch(pkm, evo)
  }

  /** The fields SetPINGA and SetNPokemonData fix: PID, gender, nature, the
      ability slot index, the six IVs, the trainer IDs and name, and the N
      marker. `ivs` is None while the IVs are random. */
  datatype Output5N = Output5N(pid: U32, gender: int, nature: int, abilityIndex: int,
                               ivs: Option<seq<int>>, tid: int, sid: int, otName: string,
                               nPokemon: bool)

  /** SetPINGA on the record built so far: the fixed PID, the gender the
      criteria choose given the PID's gender (`genderOf` stands for
      criteria.GetGender applied to GetGenderFromPID), the template's nature
      whatever the criteria ask, and the ability refreshed with
      `Ability >> 1`. The random IVs it also rolls are not modelled. */
  function SetPINGA(s: Static5N, genderOf: (int, U32) -> int, p: Output5N): (r: Output5N)
    ensures r.pid == s.pid && r.nature == s.nature
    ensures r.gender == genderOf(s.species, s.pid)
    ensures s.ability >= 0 ==> 2 * r.abilityIndex <= s.ability <= 2 * r.abilityIndex + 1
    ensures r == p.(pid := r.pid, gender := r.gender, nature := r.nature, abilityIndex := r.abilityIndex)
  {
    p.(pid := s.pid, gender := genderOf(s.species, s.pid), nature := s.nature, abilityIndex := s.ability / 2)
  }

  /** For the three ability numbers a template uses (bits 0, 1 and 2),
      `ability >> 1` is exactly the index of the set bit. */
  lemma AbilityShiftIsSlot(ability: int)
    requires ability in {1, 2, 4}
    ensures ability / 2 >= 0 && Pow2(ability / 2) == ability
  {
  }

  /** SetNPokemonData: all six IVs 30, TID 2, SID 0, the N marker, and the
      OT name for the language (`otFor`, the localized table). */
  function SetNPokemonData(p: Output5N, language: int, otFor: int -> string): (r: Output5N)
    ensures r.ivs.Some? && |r.ivs.value| == 6
    ensures forall k :: 0 <= k < |r.ivs.value| ==> r.ivs.value[k] == 30
    ensures r.tid == 2 && r.sid == 0 && r.nPokemon && r.otName == otFor(language)
    ensures r == p.(ivs := r.ivs, tid := 2, sid := 0, otName := r.otName, nPokemon := true)
  {
    p.(ivs := Some([30, 30, 30, 30, 30, 30]), tid := 2, sid := 0, otName := otFor(language), nPokemon := NSparkle)
  }

  /** A record carrying the PID synthesis wrote passes the PID gate, so it is
      decided by the static test alone. */
  lemma SynthesisPassesPidGate(s: Static5N, genderOf: (int, U32) -> int, p: Output5N,
                               baseIsMatch: (Creature, EvoCriteria) -> bool,
                               pkm: Creature, evo: EvoCriteria)
    requires pkm.pid == SetPINGA(s, genderOf, p).pid
    ensures IsMatch(s, baseIsMatch, pkm, evo) == baseIsMatch(pkm, evo)
  {
  }
}

=== FILE: static_generator.dfy ===
/** Static encounters (EncounterStaticGenerator): choosing the table of
    fixed encounters for a game, narrowing it to the species of an origin
    chain, and matching the candidates against the chain so that confident
    matches come first and deferred ones follow, each in table order. */
module StaticGenerator {
  import opened Common
  import opened Versions
  import opened Creatures

  /** The fields of a static template the generator itself reads; the
      template's own match test is an external predicate. */
  datatype StaticTemplate = StaticTemplate(species: int, form: int, level: int, location: int, version: GameVersion)

  // ---------------------------------------------------------------------
  // Matching against the chain.

  /** Whether some node of the chain satisfies the template's test. */
  predicate AnyNodeMatches<E>(e: E, chain: seq<EvoCriteria>, isMatch: (E, EvoCriteria) -> bool) {
    exists k :: 0 <= k < |chain| && isMatch(e, chain[k])
  }

  /** The candidates that match some node and are not deferred, in order. */
  function ConfidentOf<E>(poss: seq<E>, chain: seq<EvoCriteria>,
                          isMatch: (E, EvoCriteria) -> bool, isDeferred: E -> bool): seq<E> {
    Filter(poss, e => AnyNodeMatches(e, chain, isMatch) && !isDeferred(e))
  }

  /** The candidates that match some node and are deferred, in order. */
  function DeferredOf<E>(poss: seq<E>, chain: seq<EvoCriteria>,
                         isMatch: (E, EvoCriteria) -> bool, isDeferred: E -> bool): seq<E> {
    Filter(poss, e => AnyNodeMatches(e, chain, isMatch) && isDeferred(e))
  }

  /** GetMatchingStaticEncounters: every candidate is tried against the
      chain nodes in order and stops at the first it matches; a match is
      emitted at once unless the template defers it, in which case it is
      held back and emitted after all candidates have been tried. */
  method GetMatchingStaticEncounters<E>(poss: seq<E>, chain: seq<EvoCriteria>,
                                        isMatch: (E, EvoCriteria) -> bool, isDeferred: E -> bool)
    returns (r: seq<E>)
    ensures r == ConfidentOf(poss, chain, isMatch, isDeferred) + DeferredOf(poss, chain, isMatch, isDeferred)
  {
    var emitted: seq<E> := [];
    var deferred: seq<E> := [];
    var i := 0;
    while i < |poss|
      invariant 0 <= i <= |poss|
      invariant emitted == ConfidentOf(poss[..i], chain, isMatch, isDeferred)
      invariant deferred == DeferredOf(poss[..i], chain, isMatch, isDeferred)
    {
      var e := poss[i];
      var j := 0;
      var found := false;
      while j < |chain| && !found
        invariant 0 <= j <= |chain|
        invariant found <==> j > 0 && isMatch(e, chain[j - 1])
        invariant forall k :: 0 <= k < j - 1 ==> !isMatch(e, chain[k])
        invariant !found ==> forall k :: 0 <= k < j ==> !isMatch(e, chain[k])
      {
        if isMatch(e, chain[j]) {
          found := true;
        }
        j := j + 1;
      }
      assert found <==> AnyNodeMatches(e, chain, isMatch);
      assert poss[..i + 1][..i] == poss[..i];
      if found {
        if isDeferred(e) {
          deferred := deferred + [e];
        } else {
          emitted := emitted + [e];
        }
      }
      i := i + 1;
    }
    assert poss[..i] == poss;
    r := emitted + deferred;
  }

  /** Every emitted template matches some chain node and came from the
      candidates; every candidate that matches some node is emitted. */
  lemma MatchingIsSoundAndComplete<E>(poss: seq<E>, chain: seq<EvoCriteria>,
                                      isMatch: (E, EvoCriteria) -> bool, isDeferred: E -> bool)
    ensures var r := ConfidentOf(poss, chain, isMatch, isDeferred) + DeferredOf(poss, chain, isMatch, isDeferred);
            && (forall i :: 0 <= i < |r| ==> r[i] in poss && AnyNodeMatches(r[i], chain, isMatch))
            && (forall i :: 0 <= i < |poss| && AnyNodeMatches(poss[i], chain, isMatch) ==> poss[i] in r)
  {
    var c := ConfidentOf(poss, chain, isMatch, isDeferred);
    var d := DeferredOf(poss, chain, isMatch, isDeferred);
    var r := c + d;
    FilterMembers(poss, e => AnyNodeMatches(e, chain, isMatch) && !isDeferred(e));
    FilterMembers(poss, e => AnyNodeMatches(e, chain, isMatch) && isDeferred(e));
    forall i | 0 <= i < |poss| && AnyNodeMatches(poss[i], chain, isMatch)
      ensures poss[i] in r
    {
      if isDeferred(poss[i]) {
        assert poss[i] in d;
      } else {
        assert poss[i] in c;
      }
    }
    forall i | 0 <= i < |r|
      ensures r[i] in poss && AnyNodeMatches(r[i], chain, isMatch)
    {
      if i < |c| {
        assert r[i] == c[i];
      } else {
        assert r[i] == d[i - |c|];
      }
    }
  }

  /** Confident matches all precede deferred ones, and each group keeps the
      candidates' order. */
  lemma ConfidentBeforeDeferred<E>(poss: seq<E>, chain: seq<EvoCriteria>,
                                   isMatch: (E, EvoCriteria) -> bool, isDeferred: E -> bool)
    ensures var c := ConfidentOf(poss, chain, isMatch, isDeferred);
            var r := c + DeferredOf(poss, chain, isMatch, isDeferred);
            && (forall i :: 0 <= i < |c| ==> !isDeferred(r[i]))
            && (forall i :: |c| <= i < |r| ==> isDeferred(r[i]))
    ensures Subsequence(ConfidentOf(poss, chain, isMatch, isDeferred), poss)
    ensures Subsequence(DeferredOf(poss, chain, isMatch, isDeferred), poss)
  {
    FilterIsSubsequence(poss, e => AnyNodeMatches(e, chain, isMatch) && !isDeferred(e));
    FilterIsSubsequence(poss, e => AnyNodeMatches(e, chain, isMatch) && isDeferred(e));
  }

  /** No candidate occurrence is emitted twice: the output takes from the
      candidates at most as many copies of a template as they hold. */
  lemma EmittedAtMostOnce<E>(poss: seq<E>, chain: seq<EvoCriteria>,
                             isMatch: (E, EvoCriteria) -> bool, isDeferred: E -> bool)
    ensures multiset(ConfidentOf(poss, chain, isMatch, isDeferred) + DeferredOf(poss, chain, isMatch, isDeferred))
            <= multiset(poss)
  {
    DisjointFiltersWithin(poss, e => AnyNodeMatches(e, chain, isMatch) && !isDeferred(e),
                          e => AnyNodeMatches(e, chain, isMatch) && isDeferred(e));
  }

  // ---------------------------------------------------------------------
  // Choosing the candidates.

  /** The encounter tables, one per game; NoTable stands for the empty
      sequence returned for a version without static encounters. */
  datatype StaticTable =
    | StaticRBY | StaticGS | StaticGSC | StaticC
    | StaticR | StaticS | StaticE | StaticFR | StaticLG | EncounterCXD
    | StaticD | StaticP | StaticPt | StaticHG | StaticSS
    | StaticB | StaticW | StaticB2 | StaticW2
    | StaticX | StaticY | StaticA | StaticO
    | StaticSN | StaticMN | StaticUS | StaticUM
    | StaticGP | StaticGE
    | StaticSW | StaticSH
    | NoTable

  /** The versions that have a static table of their own or share one. */
  const WithStaticTable: set<GameVersion> :=
    {RBY, RD, BU, GN, YW, GSC, GD, SV, C, R, S, E, FR, LG, CXD, D, P, Pt, HG, SS,
     B, W, B2, W2, X, Y, AS, OR, SN, MN, US, UM, GP, GE, SW, SH}

  /** The configuration the generator reads: whether cartridge-era-only
      encounters are allowed, the versions that count as cartridge-era-only,
      and whether a record may be from Crystal. */
  datatype Settings = Settings(allowGBCartEra: bool, gbCartEraOnly: set<GameVersion>,
                               allowGen2Crystal: Creature -> bool)

  /** GetEncounterStaticTableGSC: Gold/Silver's table when Crystal is ruled
      out; Crystal's alone for a format 2 record with its met data; the
      combined table otherwise. */
  function TableGSC(pkm: Creature, settings: Settings): (r: StaticTable)
    ensures r == StaticGS <==> !settings.allowGen2Crystal(pkm)
    ensures r == StaticC <==> settings.allowGen2Crystal(pkm) && pkm.format == 2 && pkm.hasOriginalMetLocation
    ensures r in {StaticGS, StaticC, StaticGSC}
  {
    if !settings.allowGen2Crystal(pkm) then StaticGS
    else if pkm.format != 2 then StaticGSC
    else if pkm.hasOriginalMetLocation then StaticC
    else StaticGSC
  }

  /** The table of each version from generation 3 on, one per version,
      listed by generation. */
  const OwnTables34: seq<(GameVersion, StaticTable)> := [
    (R, StaticR), (S, StaticS), (E, StaticE), (FR, StaticFR), (LG, StaticLG), (CXD, EncounterCXD),
    (D, StaticD), (P, StaticP), (Pt, StaticPt), (HG, StaticHG), (SS, StaticSS)
  ]
  const OwnTables56: seq<(GameVersion, StaticTable)> := [
    (B, StaticB), (W, StaticW), (B2, StaticB2), (W2, StaticW2),
    (X, StaticX), (Y, StaticY), (AS, StaticA), (OR, StaticO)
  ]
  const OwnTables78: seq<(GameVersion, StaticTable)> := [
    (SN, StaticSN), (MN, StaticMN), (US, StaticUS), (UM, StaticUM), (GP, StaticGP), (GE, StaticGE),
    (SW, StaticSW), (SH, StaticSH)
  ]

  /** GetEncounterStaticTable for an already resolved source version. */
  function TableFor(pkm: Creature, source: GameVersion, settings: Settings): (r: StaticTable)
    ensures r == NoTable <==> source !in WithStaticTable
    ensures r == StaticRBY <==> source in {RBY, RD, BU, GN, YW}
    ensures r in {StaticGS, StaticC, StaticGSC} <==> source in {GSC, GD, SV, C}
    ensures source in {GSC, GD, SV, C} ==> r == TableGSC(pkm, settings)
  {
    match source
    case RBY | RD | BU | GN | YW => StaticRBY
    case GSC | GD | SV | C => TableGSC(pkm, settings)
    case R => StaticR
    case S => StaticS
    case E => StaticE
    case FR => StaticFR
    case LG => StaticLG
    case CXD => EncounterCXD
    case D => StaticD
    case P => StaticP
    case Pt => StaticPt
    case HG => StaticHG
    case SS => StaticSS
    case B => StaticB
    case W => StaticW
    case B2 => StaticB2
    case W2 => StaticW2
    case X => StaticX
    case Y => StaticY
    case AS => StaticA
    case OR => StaticO
    case SN => StaticSN
    case MN => StaticMN
    case US => StaticUS
    case UM => StaticUM
    case GP => StaticGP
    case GE => StaticGE
    case SW => StaticSW
    case SH => StaticSH
    case _ => NoTable
  }

  /** In generations 3 and 4, a version's table is the one listed for it. */
  lemma TableForOwn34(pkm: Creature, settings: Settings)
    ensures forall i :: 0 <= i < |OwnTables34| ==> TableFor(pkm, OwnTables34[i].0, settings) == OwnTables34[i].1
  {
    forall i | 0 <= i < |OwnTables34|
      ensures TableFor(pkm, OwnTables34[i].0, settings) == OwnTables34[i].1
    {
    }
  }

  /** In generations 5 and 6, a version's table is the one listed for it. */
  lemma TableForOwn56(pkm: Creature, settings: Settings)
    ensures forall i :: 0 <= i < |OwnTables56| ==> TableFor(pkm, OwnTables56[i].0, settings) == OwnTables56[i].1
  {
    forall i | 0 <= i < |OwnTables56|
      ensures TableFor(pkm, OwnTables56[i].0, settings) == OwnTables56[i].1
    {
    }
  }

  /** In generations 7 and 8, a version's table is the one listed for it. */
  lemma TableForOwn78(pkm: Creature, settings: Settings)
    ensures forall i :: 0 <= i < |OwnTables78| ==> TableFor(pkm, OwnTables78[i].0, settings) == OwnTables78[i].1
  {
    forall i | 0 <= i < |OwnTables78|
      ensures TableFor(pkm, OwnTables78[i].0, settings) == OwnTables78[i].1
    {
    }
  }

  /** From generation 3 on, every version with a table has a table of its
      own: two such versions never share one. */
  lemma TablesOfLaterVersionsDiffer(pkm: Creature, settings: Settings, a: GameVersion, b: GameVersion)
    requires a in WithStaticTable - {RBY, RD, BU, GN, YW, GSC, GD, SV, C}
    requires b in WithStaticTable - {RBY, RD, BU, GN, YW, GSC, GD, SV, C}
    requires a != b
    ensures TableFor(pkm, a, settings) != TableFor(pkm, b, settings)
  {
  }

  /** The version a search runs for: an unspecified source means the
      record's own version. */
  function ResolveSource(pkm: Creature, gameSource: GameVersion): (r: GameVersion)
    ensures gameSource != Any ==> r == gameSource
    ensures gameSource == Any ==> r == pkm.version
  {
    if gameSource == Any then pkm.version else gameSource
  }

  /** The table contents; the empty table has no templates. */
  function Contents(tables: StaticTable -> seq<StaticTemplate>, t: StaticTable): (r: seq<StaticTemplate>)
    ensures t == NoTable ==> r == []
    ensures t != NoTable ==> r == tables(t)
  {
    if t == NoTable then [] else tables(t)
  }

  predicate SpeciesInChain(e: StaticTemplate, chain: seq<EvoCriteria>) {
    exists k :: 0 <= k < |chain| && chain[k].species == e.species
  }

  /** The test a static template must pass to be a candidate: its species is
      on the chain and, unless allowed, it is not cartridge-era-only. */
  function IsCandidate(chain: seq<EvoCriteria>, settings: Settings): (r: StaticTemplate -> bool)
    ensures forall e :: r(e) <==> (SpeciesInChain(e, chain)
                                   && (settings.allowGBCartEra || e.version !in settings.gbCartEraOnly))
  {
    (e: StaticTemplate) => SpeciesInChain(e, chain)
                           && (settings.allowGBCartEra || e.version !in settings.gbCartEraOnly)
  }

  /** GetPossible: the resolved table, narrowed to the chain's species and,
      unless allowed, stripped of cartridge-era-only templates. */
  function GetPossible(pkm: Creature, chain: seq<EvoCriteria>, gameSource: GameVersion,
                       settings: Settings, tables: StaticTable -> seq<StaticTemplate>): (r: seq<StaticTemplate>)
    ensures var table := Contents(tables, TableFor(pkm, ResolveSource(pkm, gameSource), settings));
            && (forall i :: 0 <= i < |r| ==> r[i] in table && SpeciesInChain(r[i], chain))
            && (forall i :: 0 <= i < |r| && !settings.allowGBCartEra ==> r[i].version !in settings.gbCartEraOnly)
            && (forall i :: 0 <= i < |table| && SpeciesInChain(table[i], chain)
                              && (settings.allowGBCartEra || table[i].version !in settings.gbCartEraOnly)
                  ==> table[i] in r)
    ensures var table := Contents(tables, TableFor(pkm, ResolveSource(pkm, gameSource), settings));
            r == Filter(table, IsCandidate(chain, settings)) && Subsequence(r, table)
  {
    var table := Contents(tables, TableFor(pkm, ResolveSource(pkm, gameSource), settings));
    var inChain := (e: StaticTemplate) => SpeciesInChain(e, chain);
    var encounters := Filter(table, inChain);
    FilterMembers(table, inChain);
    FilterIsSubsequence(table, IsCandidate(chain, settings));
    if settings.allowGBCartEra then
      FilterCongruent(table, inChain, IsCandidate(chain, settings));
      encounters
    else
      var outsideCartEra := (e: StaticTemplate) => e.version !in settings.gbCartEraOnly;
      FilterMembers(encounters, outsideCartEra);
      FilterTwice(table, inChain, outsideCartEra, IsCandidate(chain, settings));
      Filter(encounters, outsideCartEra)
  }

  /** A record of a version without static encounters has no candidates. */
  lemma UnknownVersionHasNoCandidates(pkm: Creature, chain: seq<EvoCriteria>, settings: Settings,
                                      tables: StaticTable -> seq<StaticTemplate>)
    requires pkm.version !in WithStaticTable
    ensures GetPossible(pkm, chain, Any, settings, tables) == []
  {
  }

  /** GetValidStaticEncounter: the candidates, matched against the chain. */
  method GetValidStaticEncounter(pkm: Creature, chain: seq<EvoCriteria>, gameSource: GameVersion,
                                 settings: Settings, tables: StaticTable -> seq<StaticTemplate>,
                                 isMatch: (StaticTemplate, EvoCriteria) -> bool,
                                 isDeferred: StaticTemplate -> bool)
    returns (r: seq<StaticTemplate>)
    ensures var poss := GetPossible(pkm, chain, gameSource, settings, tables);
            r == ConfidentOf(poss, chain, isMatch, isDeferred) + DeferredOf(poss, chain, isMatch, isDeferred)
    ensures forall i :: 0 <= i < |r| ==> SpeciesInChain(r[i], chain) && AnyNodeMatches(r[i], chain, isMatch)
  {
    var poss := GetPossible(pkm, chain, gameSource, settings, tables);
    r := GetMatchingStaticEncounters(poss, chain, isMatch, isDeferred);
    MatchingIsSoundAndComplete(poss, chain, isMatch, isDeferred);
  }

  // ---------------------------------------------------------------------
  // Virtual console transfers.

  /** The static template a virtual console transfer is checked against:
      the generation it came from, the species and the met level. */
  datatype VCTransfer = VCTransfer(generation: int, species: int, metLevel: int)

  /** GetVCStaticTransferEncounter. A species past the origin generation's
      last one (an evolution made after transfer) is replaced by the matched
      encounter's species. A record that is from neither virtual console
      generation is an argument error. */
  function GetVCStaticTransferEncounter(pkm: Creature, encSpecies: int): (r: Result<VCTransfer>)
    ensures r.Fail? <==> !pkm.vc1 && !pkm.vc2
    ensures r.Ok? ==> r.value.metLevel == pkm.metLevel
    ensures r.Ok? ==> r.value.generation == (if pkm.vc1 then 1 else 2)
    ensures r.Ok? ==> r.value.species == pkm.species || r.value.species == encSpecies
    ensures r.Ok? && r.value.generation == 1 ==> (r.value.species == pkm.species <==> pkm.species <= MaxSpeciesId1 || encSpecies == pkm.species)
    ensures r.Ok? && r.value.generation == 2 ==> (r.value.species == pkm.species <==> pkm.species <= MaxSpeciesId2 || encSpecies == pkm.species)
  {
    var species := pkm.species;
    if pkm.vc1 then Ok(VCTransfer(1, if species > MaxSpeciesId1 then encSpecies else species, pkm.metLevel))
    else if pkm.vc2 then Ok(VCTransfer(2, if species > MaxSpeciesId2 then encSpecies else species, pkm.metLevel))
    else Fail(BadArgument)
  }
}

=== FILE: trades.dfy ===
/** In-game trade templates (EncounterTrade and its generation 3 variant
    EncounterTrade3): the eligibility predicate that decides whether a
    creature could have come from a trade, and the deterministic part of
    building the creature a trade hands over. */
module Trades {
  import opened Common
  import opened Versions
  import opened Creatures

  /** The Nature value that stands for "any nature". */
  const NatureRandom: int := 25

  /** Trades exist in generations 1 to 8; each template class fixes one. */
  type TradeGeneration = g: int | 1 <= g <= 8 witness 1

  /** What only a generation 3 trade carries: the fixed PID the traded
      creature has, and the contest condition it arrives with. */
  datatype Gen3Data = Gen3Data(pid: U32, contest: ContestStats)

  datatype EncounterTrade = EncounterTrade(
    generation: TradeGeneration,
    species: int,
    form: int,
    level: int,              // also the lowest level (LevelMin)
    currentLevel: int,       // -1 when the creature arrives at `level`
    location: int,           // -1 for the generation's default link-trade location
    ability: int,
    gender: int,             // -1 for any gender
    nature: int,             // NatureRandom for any nature
    shiny: Shiny,
    ball: int,
    tid: int,
    sid: int,
    otGender: int,           // -1 for any OT gender
    version: GameVersion,    // a concrete version, a group, or Any
    ivs: seq<int>,           // empty when the IVs are not fixed
    eggLocation: int,
    evolveOnTrade: bool,
    fateful: bool,
    isNicknamed: bool,
    nicknames: seq<string>,  // indexed by language identifier
    trainerNames: seq<string>,
    gen3: Option<Gen3Data>)  // Some exactly for EncounterTrade3

  const NoContest: ContestStats := ContestStats(0, 0, 0, 0, 0, 0)

  /** A template with the class's default field values. */
  function NewTrade(generation: TradeGeneration, species: int, level: int): (t: EncounterTrade)
    ensures t.species == species && t.level == level && t.generation == generation
    ensures t.currentLevel == -1 && t.location == -1
    ensures t.gender == -1 && t.nature == NatureRandom && t.otGender == -1 && t.version == Any
    ensures t.shiny == Never && t.ball == 4 && t.isNicknamed && t.gen3 == None
  {
    EncounterTrade(generation, species, 0, level, -1, -1, 0, -1, NatureRandom, Never, 4,
                   0, 0, -1, Any, [], 0, false, false, true, [], [], None)
  }

  /** A generation 3 template: the base defaults, except that the shiny
      policy defaults to FixedValue, since the fixed PID decides shininess. */
  function NewTrade3(pid: U32, species: int, level: int, contest: ContestStats): (t: EncounterTrade)
    ensures t == NewTrade(3, species, level).(shiny := FixedValue, gen3 := Some(Gen3Data(pid, contest)))
    ensures t.shiny == FixedValue && t.gen3.Some? && t.gen3.value.pid == pid
  {
    EncounterTrade(3, species, 0, level, -1, -1, 0, -1, NatureRandom, FixedValue, 4,
                   0, 0, -1, Any, [], 0, false, false, true, [], [], Some(Gen3Data(pid, contest)))
  }

  /** The `TID7` setter: the low 16 bits of `v` become the TID and the
      arithmetic shift `v >> 16` becomes the SID. The two halves put back
      together give `v` again, and nothing else in the template changes. */
  function WithTID7(t: EncounterTrade, v: I32): (r: EncounterTrade)
    ensures 0 <= r.tid < 0x1_0000 && -0x8000 <= r.sid < 0x8000
    ensures r.tid + 0x1_0000 * r.sid == v
    ensures r == t.(tid := r.tid, sid := r.sid)
  {
    t.(tid := v % 0x1_0000, sid := v / 0x1_0000)
  }

  /** A name-table lookup guarded as the source does, by `(uint)language <
      Count`: a negative language becomes a large unsigned value, so it falls
      outside the table like any index at or past the end. */
  function GetName(names: seq<string>, language: I32): (r: string)
    ensures |names| <= 0x8000_0000 ==>
              r == (if 0 <= language < |names| then names[language] else "")
    ensures r == "" || r in names
  {
    var u := language % 0x1_0000_0000;
    if u < |names| then names[u] else ""
  }

  /** The nickname for a language: the table entry when the language lies
      inside the nickname table, the empty string otherwise. */
  function GetNickname(t: EncounterTrade, language: I32): (r: string)
    ensures |t.nicknames| <= 0x8000_0000 ==>
              r == (if 0 <= language < |t.nicknames| then t.nicknames[language] else "")
    ensures r == "" || r in t.nicknames
  {
    GetName(t.nicknames, language)
  }

  /** The OT name for a language, looked up like the nickname. */
  function GetOT(t: EncounterTrade, language: I32): (r: string)
    ensures |t.trainerNames| <= 0x8000_0000 ==>
              r == (if 0 <= language < |t.trainerNames| then t.trainerNames[language] else "")
    ensures r == "" || r in t.trainerNames
  {
    GetName(t.trainerNames, language)
  }

  /** Whether the trade writes a nickname: it must be flagged as nicknamed
      and have a table, whose first entry language 0 then reads. */
  function HasNickname(t: EncounterTrade): (r: bool)
    ensures r ==> t.isNicknamed && |t.nicknames| > 0 && GetNickname(t, 0) == t.nicknames[0]
    ensures !r ==> !t.isNicknamed || t.nicknames == []
  {
    |t.nicknames| != 0 && t.isNicknamed
  }

  /** Whether the trade writes its own OT name: exactly when some language
      finds an entry in the OT table. */
  function HasTrainerName(t: EncounterTrade): (r: bool)
    ensures r ==> |t.trainerNames| > 0 && GetOT(t, 0) == t.trainerNames[0]
    ensures |t.trainerNames| > 0 ==> r
    ensures !r ==> forall language: I32 :: GetOT(t, language) == ""
  {
    |t.trainerNames| != 0
  }

  // ---------------------------------------------------------------------
  // Matching.

  /** The lookups the matcher consults and this model does not define:
      the fixed-IV sequence test, the shiny-policy test, whether a form may
      change after capture (species, form, format), and whether a record's
      contest stats are below a template's. */
  datatype TradeOracles = TradeOracles(
    fixedIVsValid: (seq<int>, Creature) -> bool,
    shinyValid: (Shiny, Creature) -> bool,
    formChangeable: (int, int, int) -> bool,
    contestBelow: (ContestStats, ContestStats) -> bool)

  /** The NPC link-trade met locations of generations 2 to 6 (Locations.LinkTradeXNPC). */
  datatype LinkTradeLocations = LinkTradeLocations(gen2: int, gen3: int, gen4: int, gen5: int, gen6: int)

  /** The default met location of a trade by generation; generation 1 has
      none (0) and generations 7 and 8 reuse generation 6's. */
  function DefaultMetLocation(links: LinkTradeLocations, generation: TradeGeneration): (r: int)
    ensures generation == 1 ==> r == 0
    ensures generation == 2 ==> r == links.gen2
    ensures generation == 3 ==> r == links.gen3
    ensures generation == 4 ==> r == links.gen4
    ensures generation == 5 ==> r == links.gen5
    ensures generation >= 6 ==> r == links.gen6
  {
    [0, links.gen2, links.gen3, links.gen4, links.gen5, links.gen6, links.gen6, links.gen6][generation - 1]
  }

  /** The met location a trade writes: its own when positive, otherwise the default. */
  function TradeMetLocation(t: EncounterTrade, links: LinkTradeLocations): (r: int)
    ensures t.location > 0 ==> r == t.location
    ensures t.location <= 0 ==> r == DefaultMetLocation(links, t.generation)
  {
    if t.location > 0 then t.location else DefaultMetLocation(links, t.generation)
  }

  /** The level rule. Without met data only the chain node's level bounds the
      template's; with met data the met location must be the trade's, and
      then records before format 5 keep the level bound while later records
      must have been met at exactly the template's level. */
  function IsMatchLevel(t: EncounterTrade, links: LinkTradeLocations, pkm: Creature, evo: EvoCriteria): (r: bool)
    ensures !pkm.hasOriginalMetLocation ==> (r <==> t.level <= evo.level)
    ensures pkm.hasOriginalMetLocation && r ==> pkm.metLocation == TradeMetLocation(t, links)
    ensures pkm.hasOriginalMetLocation && pkm.metLocation == TradeMetLocation(t, links) ==>
              (r <==> if pkm.format < 5 then t.level <= evo.level else t.level == pkm.metLevel)
  {
    if !pkm.hasOriginalMetLocation then t.level <= evo.level
    else if TradeMetLocation(t, links) != pkm.metLocation then false
    else if pkm.format < 5 then t.level <= evo.level
    else t.level == pkm.metLevel
  }

  /** Without met data the level rule ignores the record's met fields and
      compares levels only. */
  lemma LevelRuleWithoutMetData(t: EncounterTrade, links: LinkTradeLocations, pkm: Creature,
                                evo: EvoCriteria, location: int, metLevel: int)
    requires !pkm.hasOriginalMetLocation
    ensures IsMatchLevel(t, links, pkm, evo) <==> t.level <= evo.level
    ensures IsMatchLevel(t, links, pkm, evo)
         == IsMatchLevel(t, links, pkm.(metLocation := location, metLevel := metLevel), evo)
  {
  }

  /** From format 5 on, a record with met data matches exactly when it was
      met at the trade's location and level, whatever the chain node. */
  lemma LevelRuleFromFormat5(t: EncounterTrade, links: LinkTradeLocations, pkm: Creature, evo: EvoCriteria)
    requires pkm.hasOriginalMetLocation && pkm.format >= 5
    ensures IsMatchLevel(t, links, pkm, evo)
            <==> pkm.metLocation == TradeMetLocation(t, links) && pkm.metLevel == t.level
  {
  }

  /** The nature/gender/shiny test. A generation 3 template replaces it
      wholesale by a comparison of its fixed PID with the record's
      encryption constant. */
  function IsMatchNatureGenderShiny(t: EncounterTrade, o: TradeOracles, pkm: Creature): (r: bool)
    ensures t.gen3.Some? ==> (r <==> t.gen3.value.pid == pkm.encryptionConstant)
    ensures t.gen3.None? && r ==> o.shinyValid(t.shiny, pkm)
    ensures t.gen3.None? && r ==> t.gender == -1 || t.gender == pkm.gender
    ensures t.gen3.None? && r ==> t.nature == NatureRandom || t.nature == pkm.nature
    ensures (t.gen3.None? && o.shinyValid(t.shiny, pkm) && (t.gender == -1 || t.gender == pkm.gender)
             && (t.nature == NatureRandom || t.nature == pkm.nature)) ==> r
  {
    match t.gen3
    case Some(g) => g.pid == pkm.encryptionConstant
    case None =>
      if !o.shinyValid(t.shiny, pkm) then false
      else if t.gender != -1 && t.gender != pkm.gender then false
      else if t.nature != NatureRandom && pkm.nature != t.nature then false
      else true
  }

  /** The base class's `IsMatch`: the checks run in the source's order and
      the first failing one rejects. */
  function IsMatchBase(t: EncounterTrade, o: TradeOracles, links: LinkTradeLocations,
                       pkm: Creature, evo: EvoCriteria): (r: bool)
    ensures r ==> t.tid == pkm.tid && t.sid == pkm.sid
    ensures r ==> t.otGender == -1 || t.otGender == pkm.otGender
    ensures r ==> t.eggLocation == pkm.eggLocation
    ensures r ==> Contains(t.version, pkm.version)
    ensures r ==> IsMatchLevel(t, links, pkm, evo) && IsMatchNatureGenderShiny(t, o, pkm)
    ensures r ==> t.currentLevel == -1 || t.currentLevel <= pkm.currentLevel
    ensures r ==> t.form == evo.form || o.formChangeable(t.species, t.form, pkm.format)
    ensures r ==> |t.ivs| == 0 || o.fixedIVsValid(t.ivs, pkm)
    ensures ((|t.ivs| == 0 || o.fixedIVsValid(t.ivs, pkm)) && IsMatchNatureGenderShiny(t, o, pkm)
             && t.tid == pkm.tid && t.sid == pkm.sid && IsMatchLevel(t, links, pkm, evo)
             && (t.currentLevel == -1 || t.currentLevel <= pkm.currentLevel)
             && (t.form == evo.form || o.formChangeable(t.species, t.form, pkm.format))
             && (t.otGender == -1 || t.otGender == pkm.otGender)
             && t.eggLocation == pkm.eggLocation && Contains(t.version, pkm.version)) ==> r
  {
    if |t.ivs| != 0 && !o.fixedIVsValid(t.ivs, pkm) then false
    else if !IsMatchNatureGenderShiny(t, o, pkm) then false
    else if t.tid != pkm.tid then false
    else if t.sid != pkm.sid then false
    else if !IsMatchLevel(t, links, pkm, evo) then false
    else if t.currentLevel != -1 && t.currentLevel > pkm.currentLevel then false
    else if t.form != evo.form && !o.formChangeable(t.species, t.form, pkm.format) then false
    else if t.otGender != -1 && t.otGender != pkm.otGender then false
    else if t.eggLocation != pkm.eggLocation then false
    else if !Contains(t.version, pkm.version) then false
    else true
  }

  /** The full test: a generation 3 template also rejects a record whose
      contest stats are below the template's. Records of a format without
      contest stats skip that test. */
  function IsMatch(t: EncounterTrade, o: TradeOracles, links: LinkTradeLocations,
                   pkm: Creature, evo: EvoCriteria): (r: bool)
    ensures t.gen3.None? ==> r == IsMatchBase(t, o, links, pkm, evo)
    ensures r <==> IsMatchBase(t, o, links, pkm, evo)
                   && !(t.gen3.Some? && pkm.contest.Some? && o.contestBelow(pkm.contest.value, t.gen3.value.contest))
  {
    if !IsMatchBase(t, o, links, pkm, evo) then false
    else match t.gen3
      case Some(g) => !(pkm.contest.Some? && o.contestBelow(pkm.contest.value, g.contest))
      case None => true
  }

  /** A generation 3 template never looks at the record's gender or nature,
      nor at the shiny oracle: its fixed PID decides alone. */
  lemma Gen3IgnoresGenderNature(t: EncounterTrade, o: TradeOracles, o': TradeOracles,
                                pkm: Creature, gender: int, nature: int)
    requires t.gen3.Some?
    ensures IsMatchNatureGenderShiny(t, o, pkm)
         == IsMatchNatureGenderShiny(t, o', pkm.(gender := gender, nature := nature))
  {
  }

  // ---------------------------------------------------------------------
  // Synthesis: the deterministic fields of the creature a trade produces.

  /** The game-side inputs of synthesis: the record format the blank record
      of the trade's generation has, the version the trainer's game resolves
      to (GetCompatibleVersion), the language sanitiser (GetSafeLanguage),
      the fixed OT name of generation 1 trades, and the gender a species and
      PID imply (GetGenderFromPID). */
  datatype SynthesisContext = SynthesisContext(
    format: int,
    version: GameVersion,
    safeLanguage: (int, I32) -> I32,
    g1TradeOT: string,
    genderFromPid: (int, U32) -> int)

  /** The receiving trainer: language, OT name and gender. */
  datatype Trainer = Trainer(language: I32, ot: string, gender: int)

  datatype MetData = MetData(level: int, location: int)

  /** The fields ConvertToPKM fills in without randomness. `met` is None
      when no met data is written; `pid` is None when the PID is rolled at
      random; `gender` and `nature` are None when the template leaves them to
      a random choice; `contest` is None when no contest stats are copied. */
  datatype TradeOutput = TradeOutput(
    species: int,
    form: int,
    language: int,
    otName: string,
    otGender: int,
    nickname: string,
    currentLevel: int,
    version: GameVersion,
    tid: int,
    sid: int,
    ball: int,
    met: Option<MetData>,
    eggLocation: int,
    fateful: bool,
    pid: Option<U32>,
    gender: Option<int>,
    nature: Option<int>,
    contest: Option<ContestStats>)

  /** The level a trade hands over: the current level when one is set,
      otherwise the template level, and never 0. */
  function SynthesisLevel(t: EncounterTrade): (r: int)
    ensures r != 0
    ensures t.currentLevel > 0 ==> r == t.currentLevel
    ensures t.currentLevel <= 0 && t.level != 0 ==> r == t.level
    ensures t.level >= 0 ==> r >= 1
    ensures t.currentLevel <= 0 && t.level == 0 ==> r == 1
  {
    var level := if t.currentLevel > 0 then t.currentLevel else t.level;
    if level == 0 then Max(1, t.level) else level
  }

  /** The species handed over: one past the template's for a trade that
      evolves on arrival. */
  function SynthesisSpecies(t: EncounterTrade): (r: int)
    ensures r == t.species || r == t.species + 1
    ensures r == t.species + 1 <==> t.evolveOnTrade
  {
    if t.evolveOnTrade then t.species + 1 else t.species
  }

  /** Per-generation language fix-ups, tried in declaration order; the first
      whose guard holds applies and no other. */
  datatype EdgeCase =
    | JynxItalianLG     // Italian LeafGreen Jynx keeps the English names
    | MeisterMagikarp   // German language, English for a German game
    | DPJapanese        // Diamond/Pearl trades carry Japanese
    | HGSSPikachu       // English language, French for an English game
    | BWJapanese        // Japanese Black/White trades carry language 0
    | NoEdgeCase

  /** The edge case that applies for a game of version `origin` in language
      `language`. The ensures clauses make first-match-wins explicit: each
      case holds exactly when its own guard holds and no earlier guard does. */
  function EdgeCaseOf(t: EncounterTrade, origin: GameVersion, language: int): (r: EdgeCase)
    ensures r == JynxItalianLG <==>
              t.generation == 3 && t.species == Jynx && origin == LG && language == Italian
    ensures r == MeisterMagikarp <==>
              t.generation == 4 && t.version == DPPt && t.species == Magikarp
    ensures r == DPJapanese <==>
              t.generation == 4 && t.version == DPPt && t.species != Magikarp && (origin == D || origin == P)
    ensures r == HGSSPikachu <==>
              t.generation == 4 && t.version == HGSS && t.species == Pikachu
    ensures r == BWJapanese <==>
              t.generation == 5 && t.version == BW && language == Japanese
  {
    if t.generation == 3 && t.species == Jynx && origin == LG && language == Italian then JynxItalianLG
    else if t.generation == 4 && t.version == DPPt && t.species == Magikarp then MeisterMagikarp
    else if t.generation == 4 && t.version == DPPt && (origin == D || origin == P) then DPJapanese
    else if t.generation == 4 && t.version == HGSS && t.species == Pikachu then HGSSPikachu
    else if t.generation == 5 && t.version == BW && language == Japanese then BWJapanese
    else NoEdgeCase
  }

  /** Applies the edge case to the synthesised record. Only the language and
      the two names can change. */
  function UpdateEdgeCase(t: EncounterTrade, p: TradeOutput): (r: TradeOutput)
    ensures r == p.(language := r.language, otName := r.otName, nickname := r.nickname)
    ensures EdgeCaseOf(t, p.version, p.language) == NoEdgeCase ==> r == p
    ensures EdgeCaseOf(t, p.version, p.language) == JynxItalianLG ==>
              r.otName == GetOT(t, English) && r.nickname == GetNickname(t, English) && r.language == p.language
    ensures EdgeCaseOf(t, p.version, p.language) == MeisterMagikarp ==>
              r.language == (if p.language == German then English else German)
    ensures EdgeCaseOf(t, p.version, p.language) == DPJapanese ==> r.language == Japanese
    ensures EdgeCaseOf(t, p.version, p.language) == HGSSPikachu ==>
              r.language == (if p.language == English then French else English)
    ensures EdgeCaseOf(t, p.version, p.language) == BWJapanese ==> r.language == 0
  {
    match EdgeCaseOf(t, p.version, p.language)
    case JynxItalianLG => p.(otName := GetOT(t, English), nickname := GetNickname(t, English))
    case MeisterMagikarp => p.(language := if p.language == German then English else German)
    case DPJapanese => p.(language := Japanese)
    case HGSSPikachu => p.(language := if p.language == English then French else English)
    case BWJapanese => p.(language := 0)
    case NoEdgeCase => p
  }

  /** The fix-ups read only the game version, the language and the two
      names: records that agree on those come out with the same language and
      names. */
  lemma EdgeCaseReadsNamesOnly(t: EncounterTrade, p: TradeOutput, p': TradeOutput)
    requires p.version == p'.version && p.language == p'.language
    requires p.otName == p'.otName && p.nickname == p'.nickname
    ensures UpdateEdgeCase(t, p).language == UpdateEdgeCase(t, p').language
    ensures UpdateEdgeCase(t, p).otName == UpdateEdgeCase(t, p').otName
    ensures UpdateEdgeCase(t, p).nickname == UpdateEdgeCase(t, p').nickname
  {
  }

  /** The Meister Magikarp trade takes its own branch even for a Diamond or
      Pearl game, so its language is German or English, never Japanese. */
  lemma MagikarpPrecedesDP(t: EncounterTrade, p: TradeOutput)
    requires t.generation == 4 && t.version == DPPt && t.species == Magikarp
    requires p.version == D || p.version == P
    ensures UpdateEdgeCase(t, p).language in {German, English}
    ensures UpdateEdgeCase(t, p).language != Japanese
  {
  }

  /** The language and names written before the fix-ups run: the sanitised
      language, generation 1's fixed OT name for a format 1 record, else the
      trade's own OT name for that language, else the trainer's; and the
      trade's nickname for that language when it has one. */
  function WrittenLanguage(t: EncounterTrade, trainer: Trainer, ctx: SynthesisContext): (p: (I32, string, string))
    ensures p.0 == ctx.safeLanguage(t.generation, trainer.language)
    ensures ctx.format == 1 ==> p.1 == ctx.g1TradeOT
    ensures ctx.format != 1 && HasTrainerName(t) ==> p.1 == GetOT(t, p.0) && (p.1 == "" || p.1 in t.trainerNames)
    ensures ctx.format != 1 && !HasTrainerName(t) ==> p.1 == trainer.ot
    ensures HasNickname(t) ==> p.2 == GetNickname(t, p.0) && (p.2 == "" || p.2 in t.nicknames)
    ensures !HasNickname(t) ==> p.2 == ""
  {
    var lang := ctx.safeLanguage(t.generation, trainer.language);
    (lang,
     if ctx.format == 1 then ctx.g1TradeOT else if HasTrainerName(t) then GetOT(t, lang) else trainer.ot,
     if HasNickname(t) then GetNickname(t, lang) else "")
  }

  /** ConvertToPKM/ApplyDetails, reduced to the fields the model keeps.
      Format 2 records from a game other than Crystal get no met data and an
      OT gender of 0; the language fix-ups then run on the language and names
      written. SetPINGA writes a fixed nature and, outside generation 3, a
      fixed gender; a generation 3 trade writes its fixed PID, takes the
      gender from it, and copies its contest stats last. */
  function ApplyDetails(t: EncounterTrade, links: LinkTradeLocations, trainer: Trainer,
                        ctx: SynthesisContext): (r: TradeOutput)
    ensures r.species == SynthesisSpecies(t) && r.form == t.form
    ensures r.currentLevel == SynthesisLevel(t) && r.version == ctx.version
    ensures r.tid == t.tid && r.sid == t.sid && r.ball == t.ball
    ensures r.eggLocation == t.eggLocation && r.fateful == t.fateful
    ensures r.met.Some? <==> ctx.format != 2 || ctx.version == C
    ensures r.met.Some? ==> r.met.value == MetData(SynthesisLevel(t), TradeMetLocation(t, links))
    ensures r.met.None? ==> r.otGender == 0
    ensures r.met.Some? && HasTrainerName(t) ==> r.otGender == Max(0, t.otGender)
    ensures r.met.Some? && !HasTrainerName(t) ==> r.otGender == trainer.gender
    ensures r.pid.Some? <==> t.gen3.Some?
    ensures t.gen3.Some? ==> r.pid == Some(t.gen3.value.pid)
                             && r.gender == Some(ctx.genderFromPid(t.species, t.gen3.value.pid))
                             && r.contest == Some(t.gen3.value.contest)
    ensures t.gen3.None? ==> r.contest.None?
    ensures t.gen3.None? ==> (r.gender.Some? <==> t.gender != -1)
    ensures t.gen3.None? && t.gender != -1 ==> r.gender == Some(t.gender)
    ensures r.nature.Some? <==> t.nature != NatureRandom
    ensures t.nature != NatureRandom ==> r.nature == Some(t.nature)
    ensures var w := WrittenLanguage(t, trainer, ctx);
            var q := UpdateEdgeCase(t, r.(language := w.0, otName := w.1, nickname := w.2));
            r.language == q.language && r.otName == q.otName && r.nickname == q.nickname
    ensures var w := WrittenLanguage(t, trainer, ctx);
            EdgeCaseOf(t, ctx.version, w.0) == NoEdgeCase ==>
              r.language == w.0 && r.otName == w.1 && r.nickname == w.2
  {
    var w := WrittenLanguage(t, trainer, ctx);
    var lang := w.0;
    var level := SynthesisLevel(t);
    var hasMet := ctx.format != 2 || ctx.version == C;
    var otGender := if HasTrainerName(t) then Max(0, t.otGender) else trainer.gender;
    var p := TradeOutput(
      SynthesisSpecies(t), t.form, lang, w.1,
      if hasMet then otGender else 0,
      w.2,
      level, ctx.version, t.tid, t.sid, t.ball,
      if hasMet then Some(MetData(level, TradeMetLocation(t, links))) else None,
      if t.eggLocation != 0 then t.eggLocation else 0,
      t.fateful,
      if t.gen3.Some? then Some(t.gen3.value.pid) else None,
      if t.gen3.Some? then Some(ctx.genderFromPid(t.species, t.gen3.value.pid))
      else if t.gender != -1 then Some(t.gender) else None,
      if t.nature != NatureRandom then Some(t.nature) else None,
      None);
    var q := UpdateEdgeCase(t, p);
    var r := match t.gen3
             case Some(g) => q.(contest := Some(g.contest))
             case None => q;
    EdgeCaseReadsNamesOnly(t, p, r.(language := w.0, otName := w.1, nickname := w.2));
    r
  }

  /** A record carrying what synthesis writes (the first ensures) passes the
      identity, OT-gender, egg-location and level checks of the template it
      came from, on any chain node at or above the template's level; it also
      passes the
      nature/gender/shiny test when its encryption constant is the written
      PID (generation 3) or when it carries the written gender and nature
      and the shiny policy holds (other generations). */
  lemma SynthesisPassesChecks(t: EncounterTrade, o: TradeOracles, links: LinkTradeLocations, trainer: Trainer,
                              ctx: SynthesisContext, pkm: Creature, evo: EvoCriteria)
    requires ctx.format != 2 && HasTrainerName(t) && t.otGender >= -1
    requires t.currentLevel <= 0 && t.level != 0 && t.level <= evo.level
    requires pkm.format == ctx.format && pkm.hasOriginalMetLocation
    requires pkm.metLevel == SynthesisLevel(t) && pkm.metLocation == TradeMetLocation(t, links)
    requires pkm.tid == t.tid && pkm.sid == t.sid
    requires pkm.otGender == Max(0, t.otGender) && pkm.eggLocation == t.eggLocation
    ensures var r := ApplyDetails(t, links, trainer, ctx);
            && r.met == Some(MetData(pkm.metLevel, pkm.metLocation))
            && r.tid == pkm.tid && r.sid == pkm.sid
            && r.otGender == pkm.otGender && r.eggLocation == pkm.eggLocation
    ensures IsMatchLevel(t, links, pkm, evo)
    ensures t.tid == pkm.tid && t.sid == pkm.sid && t.eggLocation == pkm.eggLocation
    ensures t.otGender == -1 || t.otGender == pkm.otGender
    ensures var r := ApplyDetails(t, links, trainer, ctx);
            t.gen3.Some? && pkm.encryptionConstant == r.pid.value ==> IsMatchNatureGenderShiny(t, o, pkm)
    ensures var r := ApplyDetails(t, links, trainer, ctx);
            (&& t.gen3.None? && o.shinyValid(t.shiny, pkm)
             && (r.gender.Some? ==> pkm.gender == r.gender.value)
             && (r.nature.Some? ==> pkm.nature == r.nature.value))
            ==> IsMatchNatureGenderShiny(t, o, pkm)
  {
  }
}

=== FILE: versions.dfy ===
/** Game versions, version groups and language identifiers.

    A template stores either one concrete version or a group; a creature
    always carries a concrete version, and matching tests group membership. */
module Versions {

  datatype GameVersion =
    // logical values
    | Any
    // generation 1 and 2 (cartridge and virtual console)
    | RD | GN | BU | YW | GD | SV | C
    // generation 3
    | S | R | E | FR | LG | CXD
    // generation 4
    | D | P | Pt | HG | SS
    // generation 5
    | B | W | B2 | W2
    // generation 6
    | X | Y | AS | OR
    // generation 7
    | SN | MN | US | UM | GO | GP | GE
    // generation 8
    | SW | SH
    // side games only reachable in the cartridge era
    | Stadium | Stadium2
    // groups
    | RBY | GSC | RSE | FRLG | DP | DPPt | HGSS | BW | B2W2 | XY | ORAS | SM | USUM | GG | SWSH
    // any other value a record may carry
    | Unknown(code: int)

  /** The concrete versions a group stands for (empty for a concrete version). */
  function Members(g: GameVersion): set<GameVersion> {
    match g
    case RBY => {RD, GN, BU, YW}
    case GSC => {GD, SV, C}
    case RSE => {R, S, E}
    case FRLG => {FR, LG}
    case DP => {D, P}
    case DPPt => {D, P, Pt}
    case HGSS => {HG, SS}
    case BW => {B, W}
    case B2W2 => {B2, W2}
    case XY => {X, Y}
    case ORAS => {OR, AS}
    case SM => {SN, MN}
    case USUM => {US, UM}
    case GG => {GP, GE}
    case SWSH => {SW, SH}
    case _ => {}
  }

  /** Whether a template's version value admits the concrete version `v`. */
  predicate Contains(g: GameVersion, v: GameVersion) {
    g == v || g == Any || v in Members(g)
  }

  // Language identifiers (LanguageID).
  const Hacked: int := 0
  const Japanese: int := 1
  const English: int := 2
  const French: int := 3
  const Italian: int := 4
  const German: int := 5
  const Spanish: int := 7
  const Korean: int := 8

  // Species numbers the core singles out.
  const Pikachu: int := 25
  const Jynx: int := 124
  const Magikarp: int := 129
  const MaxSpeciesId1: int := 151
  const MaxSpeciesId2: int := 251
}
